=== FILE: README.md ===
# EcoEcho composers, action list and dashboard — a Dafny model

EcoEcho is a React client where users log sustainable actions and chat with a scripted
assistant. The client has little logic. What it has is modelled here:

- the two **attachment composers**, as pure state machines:
  - `EcoAssistant` has text, a photo with a preview URL, and a voice note with a playback URL;
  - `EcoActionInput` has text, a photo and a voice note, and no URLs.
- the **`useEcoActions` hook**, as list updates over the backend's answers;
- the **dashboard page** (`Index.tsx`): its point totals, blank-input guards and avatar overflow.

Browser resources are part of each composer's state (`Media.Browser`). This covers the
live object URLs, the streams whose tracks are still running, the MediaRecorders and their
phase, and the running intervals. A single counter hands out the ids, so a freshly created
handle is one that was not live before. This lets the model follow the lifecycle of every
preview URL. It shows three places where `EcoAssistant` loses track of one (see Findings).
Module `AssistantCorrected` repairs those three handlers. It proves that for every sequence
of user and browser events, the live URLs are then exactly the URLs the component refers to.

Modules, one per file:

- `Common`: the `Option` type.
- `Text`: JavaScript `trim`, decimal rendering, and `formatTime`.
- `Media`: the browser registry and the 5 MiB limit.
- `Recording`: the recording session both composers share.
- `EcoAssistant`: the assistant composer as written.
- `AssistantCorrected`: the assistant composer with the three findings repaired.
- `EcoActionInput`: the action composer.
- `EcoActions`: the `useEcoActions` hook.
- `Dashboard`: the `Index.tsx` page.

Inputs that come from outside the code are parameters:

- the microphone answer (`Granted`/`Denied`);
- the chunks a recorder delivers;
- the file picked;
- the backend's insert and query results;
- the `Math.random()` draw, a real `r` with `0 <= r < 1`;
- the ISO timestamp of `new Date()`;
- the index of the canned reply.

Timer and recorder callbacks are events. An `Enabled` predicate says when the browser can
deliver them. For example, an interval only fires while one is running, and `onstop` only
runs after `stop()`.

Two facts about the code shape the model:

- `useEcoActions` uploads no attachment and has no realtime subscription. `addEcoAction` inserts a
  text row and prepends the returned record.
- `EcoActionInput` creates no object URL. Only `EcoAssistant` creates preview and playback URLs.

## Model

| member | source | states |
|---|---|---|
| `Text.Trim` | src/components/EcoAssistant.tsx:147 | the result is an infix of the input. Everything before it and after it is whitespace. The result neither starts nor ends with whitespace |
| `Text.BlankIffAllWhitespace` | src/pages/Index.tsx:40 | the `!x.trim()` guard holds exactly when every character is whitespace |
| `Text.TrimIdempotent` | src/components/EcoAssistant.tsx:147 | a property of `trim` itself: trimming an already trimmed string changes nothing |
| `Text.Decimal` | src/components/EcoAssistant.tsx:206 | `toString` of a count gives at least one digit, all decimal, with no leading zero unless the count is 0 |
| `Text.ParseDecimalOfDecimal` | src/components/EcoAssistant.tsx:206 | the digits `toString` produces read back as the same number |
| `Text.PadTwo` | src/components/EcoAssistant.tsx:206 | `padStart(2, '0')` keeps strings of two or more characters. It left-fills shorter ones with '0' to exactly two |
| `Text.FormatTime` | src/components/EcoAssistant.tsx:203-207 | the label is minutes, ':', then exactly two digits of seconds below 60. The minutes have no leading zero. Minutes times 60 plus seconds is the input |
| `Text.DecimalOfParseDecimal` | src/components/EcoAssistant.tsx:204-206 | every numeral without a leading zero is the `toString` of its own value |
| `Text.FormatTimeRoundTrip` | src/components/EcoActionInput.tsx:135-139 | parsing a label back recovers the number of seconds. The parser accepts only minutes without a leading zero |
| `Text.ParseTimeRoundTrip` | src/components/EcoActionInput.tsx:135-139 | every label the parser accepts is exactly the label `formatTime` draws for its value. With `FormatTimeRoundTrip`, this makes the labels and the durations correspond one to one |
| `Text.FormatTimeInjective` | src/components/EcoActionInput.tsx:135-139 | different durations never get the same label |
| `Text.FormatTimeExamples` | src/components/EcoAssistant.tsx:203-207 | 3 seconds is drawn as "0:03" and 75 seconds as "1:15" |
| `Media.PhotoLimitBoundary` | src/components/EcoAssistant.tsx:39 | the limit test is a strict `>`: exactly 5 MiB passes and 5 MiB + 1 byte is refused |
| `Media.CreateObjectUrl` | src/components/EcoAssistant.tsx:49 | `createObjectURL` yields a handle that was not live and is now live. Nothing else changes |
| `Media.RevokeObjectUrl` | src/components/EcoAssistant.tsx:117 | `revokeObjectURL` makes exactly that handle dead. Revoking a dead handle changes nothing |
| `Media.RevokeIfPresent` | src/components/EcoAssistant.tsx:116-119 | the `if (url) revokeObjectURL(url)` pattern revokes the slot's handle, or does nothing when the slot is empty |
| `Recording.Start` | src/components/EcoAssistant.tsx:54-90 | when the microphone is refused, nothing changes. When it is granted, a new stream opens, a new recorder is active on it with no chunks, a new interval runs, and the session is recording from 0 |
| `Recording.Tick` | src/components/EcoAssistant.tsx:79-81 | one interval firing adds exactly one second and changes nothing else |
| `Recording.TicksAdd` | src/components/EcoActionInput.tsx:74-76 | n firings add exactly n seconds |
| `Recording.Stop` | src/components/EcoAssistant.tsx:92-100 | this is a no-op unless a recorder exists and `isRecording` holds. Otherwise the recorder moves to stopping, the interval stops, and the flag clears. The stream is still open until `onstop` runs |
| `Recording.DataAvailable` | src/components/EcoAssistant.tsx:61-63 | a delivered chunk is appended to that recorder's chunks. Nothing else changes |
| `Recording.Finish` | src/components/EcoAssistant.tsx:65-73 | `onstop` turns all chunks into one `audio/wav` blob, stops every track of the stream, and finishes the recorder |
| `Recording.StopThenFinishReleasesStream` | src/components/EcoActionInput.tsx:59-95 | stop followed by `onstop` always closes the stream and stops the interval. The blob holds every delivered chunk |
| `EcoAssistant.InitWf` | src/components/EcoAssistant.tsx:20-28 | the initial state is consistent, with no leaked and no dangling handle |
| `EcoAssistant.MessageHandlesSpec` | src/components/EcoAssistant.tsx:163-164 | a handle is shown by the chat exactly when some message carries it |
| `EcoAssistant.EditText` | src/components/EcoAssistant.tsx:280 | editing sets the text and nothing else |
| `EcoAssistant.HandlePhotoUpload` | src/components/EcoAssistant.tsx:36-52 | no file, or a file over 5 MiB, leaves the state unchanged. Otherwise the photo is set with a fresh, live preview handle. Only the photo, its preview and the URL registry change |
| `EcoAssistant.PhotoSizeBoundary` | src/components/EcoAssistant.tsx:39-50 | a photo of exactly 5 MiB is accepted. One byte more leaves the state unchanged |
| `EcoAssistant.StartRecording` | src/components/EcoAssistant.tsx:54-90 | a refused microphone changes nothing. A granted one starts recording from 0. The draft and URLs are untouched |
| `EcoAssistant.Tick` | src/components/EcoAssistant.tsx:79-81 | the timer reads one second more and nothing else changes, so no handle is created, leaked or released |
| `EcoAssistant.StopRecording` | src/components/EcoAssistant.tsx:92-100 | this is a no-op unless a recorder exists and `isRecording` holds. Otherwise recording stops, the recorder's `onstop` is pending, and the interval no longer runs. The timer value is kept |
| `EcoAssistant.DataAvailable` | src/components/EcoAssistant.tsx:61-63 | the chunk is appended to that recorder's buffer and nothing else changes |
| `EcoAssistant.OnStop` | src/components/EcoAssistant.tsx:65-73 | the voice note becomes the blob of all chunks with a fresh live playback handle. The stream is closed. Only the voice note, its URL and the registry change |
| `EcoAssistant.ThreeSecondNote` | src/components/EcoAssistant.tsx:54-100 | recording for three interval firings and stopping shows "0:03". After `onstop`, the voice note is present and the stream is closed |
| `EcoAssistant.PlayAudio` | src/components/EcoAssistant.tsx:102-112 | this toggles playback only when a voice note exists, and otherwise changes nothing |
| `EcoAssistant.PlayAudioTwice` | src/components/EcoAssistant.tsx:102-112 | pressing play twice restores the state |
| `EcoAssistant.AudioEnded` | src/components/EcoAssistant.tsx:364 | the end of playback clears only the playing flag |
| `EcoAssistant.RemovePhoto` | src/components/EcoAssistant.tsx:114-123 | the photo slot is cleared. Its handle is revoked only if present. Nothing else changes |
| `EcoAssistant.RemoveAudio` | src/components/EcoAssistant.tsx:125-133 | the voice note slot is cleared and its handle revoked only if present. The timer and playing flag are zeroed. Nothing else changes |
| `EcoAssistant.RemoveIdempotent` | src/components/EcoAssistant.tsx:114-133 | removing the photo or voice note a second time changes nothing |
| `EcoAssistant.HandleSubmit` | src/components/EcoAssistant.tsx:146-201 | an empty draft changes nothing. Otherwise one user message is appended, carrying the trimmed text (or "Shared media attachment" when the text is blank) and the draft's two handles. A reply is scheduled and the draft, timer and playback are reset. Both handles are revoked |
| `EcoAssistant.SubmitAppendsIffDraftNonEmpty` | src/components/EcoAssistant.tsx:147-168 | submit appends exactly one message when the draft is not empty and none when it is. Earlier messages are kept |
| `EcoAssistant.AssistantReply` | src/components/EcoAssistant.tsx:170-181 | the delayed reply appends one canned assistant message with no attachment and ends loading |
| `EcoAssistant.ReplacingPhotoLeaksPreview` | src/components/EcoAssistant.tsx:48-50 | accepting a second photo leaves the old preview live but unreferenced. The leaked set grows by exactly that handle |
| `EcoAssistant.RerecordingLeaksAudioUrl` | src/components/EcoAssistant.tsx:65-70 | finishing a second recording leaves the old playback handle live but unreferenced |
| `EcoAssistant.SubmitLeavesMessagesDangling` | src/components/EcoAssistant.tsx:159-197 | the new message shows exactly the draft's handles, and submit revokes all of them. The dangling set grows by exactly those handles |
| `EcoAssistant.PhotoLeakExample` | src/components/EcoAssistant.tsx:48-50 | choosing two photos from the initial state leaves handle 0 leaked |
| `EcoAssistant.DanglingMessageExample` | src/components/EcoAssistant.tsx:159-197 | sending a lone photo yields a message that refers to handle 0, which is no longer live |
| `EcoAssistant.Run` | src/components/EcoAssistant.tsx:36-201 | every state a sequence of deliverable events reaches is consistent |
| `EcoAssistant.RunsFromInitStayWf` | src/components/EcoAssistant.tsx:20-28 | every state the component reaches from page load is consistent |
| `EcoAssistant.Step` | src/components/EcoAssistant.tsx:36-201 | every handler and browser callback keeps the state consistent |
| `AssistantCorrected.ExactMeansNoLeakNoDangling` | src/components/EcoAssistant.tsx:36-201 | exact URL accounting means no leaked handle and no dangling handle |
| `AssistantCorrected.PhotoUploadRevoking` | src/components/EcoAssistant.tsx:36-52 | the repaired upload revokes the old preview before creating the new one. The leaked set stays the same |
| `AssistantCorrected.OnStopRevoking` | src/components/EcoAssistant.tsx:65-73 | the repaired `onstop` revokes the old playback handle first. The leaked set stays the same |
| `AssistantCorrected.SubmitHandingOver` | src/components/EcoAssistant.tsx:159-200 | the repaired submit equals the code's submit except that it revokes nothing. The leaked and dangling sets stay the same |
| `AssistantCorrected.RemovesKeepAccounting` | src/components/EcoAssistant.tsx:114-133 | each remove handler revokes exactly the handle it stops referring to, so the leaked set stays the same and no new dangling handle appears |
| `AssistantCorrected.OtherHandlersKeepAccounting` | src/components/EcoAssistant.tsx:36-201 | every other handler already creates no leak and no new dangling handle |
| `AssistantCorrected.StepCorrected` | src/components/EcoAssistant.tsx:36-201 | no step of the repaired composer adds a leaked or dangling handle |
| `AssistantCorrected.CorrectedRunsStayExact` | src/components/EcoAssistant.tsx:36-201 | from an exact state, every run of events stays exact |
| `AssistantCorrected.CorrectedFromInit` | src/components/EcoAssistant.tsx:20-28 | every state the repaired composer reaches from page load has exact accounting |
| `EcoActionInput.EditDescription` | src/components/EcoActionInput.tsx:152 | editing sets the description and nothing else |
| `EcoActionInput.HandlePhotoUpload` | src/components/EcoActionInput.tsx:29-46 | no file, or a file over 5 MiB, leaves the state unchanged. Otherwise only the photo is set |
| `EcoActionInput.StartRecording` | src/components/EcoActionInput.tsx:48-85 | a refused microphone changes nothing. A granted one starts recording from 0 |
| `EcoActionInput.Tick` | src/components/EcoActionInput.tsx:74-76 | the timer reads one second more and nothing else changes |
| `EcoActionInput.StopRecording` | src/components/EcoActionInput.tsx:87-95 | the handler acts only when a recorder exists and `isRecording` holds. It then clears the flag and leaves `onstop` pending |
| `EcoActionInput.DataAvailable` | src/components/EcoActionInput.tsx:55-57 | the chunk is appended to that recorder's buffer |
| `EcoActionInput.OnStop` | src/components/EcoActionInput.tsx:59-67 | the voice note becomes the blob of all chunks and the stream is closed. Nothing else changes |
| `EcoActionInput.RemovePhoto` | src/components/EcoActionInput.tsx:97-102 | only the photo is cleared |
| `EcoActionInput.RemoveAudio` | src/components/EcoActionInput.tsx:104-107 | only the voice note and the timer are cleared |
| `EcoActionInput.HandleSubmit` | src/components/EcoActionInput.tsx:109-133 | `onSubmit` is called exactly when the draft is not empty. It receives the trimmed description and exactly the attachments present. The form and timer are then reset and `isRecording` is left unchanged. An empty draft changes nothing |
| `EcoActionInput.SentDraftNeverEmpty` | src/components/EcoActionInput.tsx:110-123 | what `onSubmit` receives always has text, a photo or a voice note |
| `EcoActionInput.NoDoubleSubmit` | src/components/EcoActionInput.tsx:119-132 | the form is cleared as it is sent, so a second send right after sends nothing |
| `EcoActionInput.Step` | src/components/EcoActionInput.tsx:29-133 | every handler keeps the session consistent and never creates an object URL. Only the send handler calls `onSubmit`, and always with text, a photo or a voice note |
| `EcoActionInput.Run` | src/components/EcoActionInput.tsx:29-133 | every state a sequence of events reaches is consistent. Every payload `onSubmit` received on the way has text, a photo or a voice note |
| `EcoActionInput.NoEmptyActionEverSent` | src/components/EcoActionInput.tsx:110-123 | from page load, whatever the user does, `onSubmit` never receives an empty action |
| `EcoActions.DatePart` | src/hooks/useEcoActions.ts:56 | the date is the prefix of the timestamp up to its first 'T', or the whole timestamp when it has none |
| `EcoActions.DatePartOfTimestamp` | src/hooks/useEcoActions.ts:56 | a date without 'T', followed by 'T' and a time, gives back exactly that date |
| `EcoActions.RandomScore` | src/hooks/useEcoActions.ts:55 | the random score lies in 1..5 for every draw in [0, 1) |
| `EcoActions.RandomScoreBands` | src/hooks/useEcoActions.ts:55 | score k is drawn exactly on the fifth [(k-1)/5, k/5) of the range |
| `EcoActions.ScoreFor` | src/hooks/useEcoActions.ts:55 | a given non-zero score is kept. A missing or zero score is replaced by the random score in 1..5 |
| `EcoActions.AddEcoAction` | src/hooks/useEcoActions.ts:45-77 | with no user, nothing is sent and nothing changes. Otherwise one row is sent with the user, the description, the chosen score and the date part. On success the list grows by one, with the returned record first and the old list as its tail. On failure the list is unchanged |
| `EcoActions.FetchEcoActions` | src/hooks/useEcoActions.ts:20-43 | with no user, nothing changes. Otherwise loading ends. A successful query replaces the list by its data, or by the empty list when the data is null. A failed query keeps the list |
| `EcoActions.FetchIdempotent` | src/hooks/useEcoActions.ts:20-43 | refetching with the same answer changes nothing more |
| `Dashboard.ReduceIsSum` | src/pages/Index.tsx:36 | the left fold `reduce` from an initial value adds the sum of the elements to that value |
| `Dashboard.TotalPoints` | src/pages/Index.tsx:36 | total points equal the sum of the impact scores |
| `Dashboard.CommunityImpact` | src/pages/Index.tsx:37 | the community total equals the sum of the impact scores plus the sum of the friends' points |
| `Dashboard.CommunityWithMockFriends` | src/pages/Index.tsx:25-37 | with the page's three friends, the community total is the user's points plus 310 |
| `Dashboard.BeforeFirstLoad` | src/hooks/useEcoActions.ts:15-16 | the hook starts with no action and not loading, so the page shows 0 points and a community total of 310 |
| `Dashboard.AddMovesTotalsByScore` | src/pages/Index.tsx:36-37 | a saved action raises both totals by exactly its score. A failed save, or no user, leaves them unchanged |
| `Dashboard.HandleAddAction` | src/pages/Index.tsx:39-45 | a blank title does nothing. Otherwise the untrimmed title is added with no given score. Then the title is cleared and the dialog closed, whatever the backend answered |
| `Dashboard.AddActionSavesOne` | src/pages/Index.tsx:39-45 | a saved non-blank title puts exactly the returned record in front, after sending a score in 1..5 |
| `Dashboard.InviteFriend` | src/pages/Index.tsx:47-56 | a blank email does nothing. Otherwise only the email and the dialog flag change: the email is cleared and the dialog closed |
| `Dashboard.WhitespaceInputsIgnored` | src/pages/Index.tsx:39-51 | whitespace-only title or email input leaves the page unchanged |
| `Dashboard.ShownAvatars` | src/pages/Index.tsx:116 | at most three avatars are drawn: the first three friends, or all of them when there are fewer |
| `Dashboard.OverflowBadge` | src/pages/Index.tsx:124-127 | the badge appears exactly when there are more than three friends, and it counts at least one |
| `Dashboard.AvatarsAndBadgeCoverFriends` | src/pages/Index.tsx:116-127 | avatars drawn plus the badge count equal the number of friends |

## Left out

- Toast notifications: every handler's notice (file too large, recording failed, nothing to send, saved, error) is presentation. The model keeps only the state change each handler makes.
- Rendering, dialogs, styling, and the file input's `value = ''` reset: these are UI with no state of the model.
- The `isLoading`-disabled send button: `handleSubmit` itself has no guard, so the model has none.
- Dashboard.HandleAddAction: the handler is one atomic step. In the code it awaits `addEcoAction` (src/pages/Index.tsx:42) before it clears the title (src/pages/Index.tsx:43), and neither the Enter key (src/pages/Index.tsx:181) nor the "Log Action" button (src/pages/Index.tsx:184) is disabled meanwhile. A second press during the await inserts the same title again. The model has no pending-insert state, so it cannot show that double insert.
- EcoActions.FetchEcoActions: the `loading = true` phase while the query is pending (src/hooks/useEcoActions.ts:23) is not a state of the model. The fetch is one step from the state before it to the state after the answer.
- React batching and stale closures: `addEcoAction` prepends to the list it closed over. The model prepends to the current list.
- Message ids and timestamps (`Date.now()`, `new Date()`): clock values with no behaviour attached.
- The 1500 ms reply delay and the 1000 ms interval period: only the order of events is modelled.
- A MediaRecorder constructor or `start()` that throws after the microphone was granted: the model's microphone answer is only granted or refused. The thrown case would leave the stream open.
- `audio.play()` rejecting: playback is modelled as a flag.
- Progress-bar widths (`Math.min((totalPoints / 50) * 100, 100)` and the community bar): floating point display.
- The backend's ordering of fetched actions by date: the backend is a foreign service, and its data is taken as given.
- `Text.Decimal`: `Number.prototype.toString` switches to exponent notation at 10^21. In `formatTime` only the minutes can get that large (`secs` is below 60), so the label changes form at 10^21 minutes, or 6·10^22 seconds. The model always renders plain digits.
- Impact scores and points are unbounded integers rather than JavaScript numbers; sums cannot overflow or round in the model.
- Recording.Tick: `recordingTime` is a JavaScript number, and `prev => prev + 1` stops increasing once it reaches 2^53. The model's timer is an unbounded integer, and every firing adds exactly one.
- Recording.TicksAdd: for the same reason, n firings add exactly n only while the timer stays below 2^53.
- EcoAssistant.Tick: its timer has the same unbounded-integer simplification as `Recording.Tick`.
- EcoActionInput.Tick: its timer has the same unbounded-integer simplification as `Recording.Tick`.
- `src/pages/Auth.tsx` and `src/contexts/AuthContext.tsx`: the user is a constant and sign-in always succeeds. The user is a parameter (`Option<User>`) of the hook.
- Component teardown: the code revokes nothing and stops no stream on unmount, and the model has no unmount event.

## Findings

| source | as written | input that shows it | evidently intended | confidence | as-written member | corrected member |
|---|---|---|---|---|---|---|
| src/components/EcoAssistant.tsx:48-50 | a new preview URL replaces the old one without revoking it | choose photo a.jpg, then photo b.jpg: the first preview handle stays live and nothing refers to it | revoke the previous preview before storing the new one | not executed; high | `EcoAssistant.ReplacingPhotoLeaksPreview`, `EcoAssistant.PhotoLeakExample` | `AssistantCorrected.PhotoUploadRevoking` |
| src/components/EcoAssistant.tsx:65-70 | `onstop` stores a new playback URL without revoking the previous one | record, stop, record again and stop without removing the first note: the first playback handle stays live and unreferenced | revoke the previous playback URL before storing the new one | not executed; high | `EcoAssistant.RerecordingLeaksAudioUrl` | `AssistantCorrected.OnStopRevoking` |
| src/components/EcoAssistant.tsx:159-197 | submit stores the preview and playback URLs in the new message, then revokes both | record a voice note and press send: the new message refers to the revoked playback handle, and its `<audio>` element (EcoAssistant.tsx:247-252) loads a revoked URL. A sent photo also refers to a revoked handle, although a browser may still draw it from its image cache | the message keeps the URLs alive while it shows them | not executed; high | `EcoAssistant.DanglingMessageExample`, `EcoAssistant.SubmitLeavesMessagesDangling` | `AssistantCorrected.SubmitHandingOver` |

=== FILE: assistant_corrected.dfy ===
/**
  The EcoAssistant composer with its three handle-lifecycle defects repaired:
  - a replaced photo preview is revoked before the new one is created;
  - a replaced voice-note playback handle is revoked before the new one is created;
  - sending hands the draft's handles over to the new message instead of revoking them.
  With these, the live object URLs are always exactly the ones the component refers to:
  none leaks, none is shown after it was revoked.
 */
module AssistantCorrected {
  import opened Common
  import Media
  import Recording
  import opened EcoAssistant

  /** Every live handle is referenced and every referenced handle is live. */
  ghost predicate Exact(s: State) {
    s.browser.liveUrls == Referenced(s)
  }

  lemma ExactMeansNoLeakNoDangling(s: State)
    ensures Exact(s) <==> Leaked(s) == {} && Dangling(s) == {}
  {
    if Leaked(s) == {} && Dangling(s) == {} {
      assert forall h :: h in s.browser.liveUrls ==> h in Referenced(s) by {
        forall h | h in s.browser.liveUrls ensures h in Referenced(s) {
          assert h !in Leaked(s);
        }
      }
      assert forall h :: h in Referenced(s) ==> h in s.browser.liveUrls by {
        forall h | h in Referenced(s) ensures h in s.browser.liveUrls {
          assert h !in Dangling(s);
        }
      }
    }
  }

  /** `handlePhotoUpload`, revoking the previous preview when a new photo is accepted. */
  function PhotoUploadRevoking(s: State, file: Option<Media.File>): (r: State)
    requires Wf(s)
    ensures Wf(r)
    ensures file.None? || Media.TooLarge(file.value) ==> r == s
    ensures file.Some? && !Media.TooLarge(file.value) ==>
      && r.photo == file && r.photoPreview.Some?
      && r.photoPreview.value !in s.browser.liveUrls
      && r.browser.liveUrls == s.browser.liveUrls - OptSet(s.photoPreview) + {r.photoPreview.value}
    ensures Leaked(r) == Leaked(s)
    ensures Dangling(r) <= Dangling(s)
  {
    if file.None? || Media.TooLarge(file.value) then s
    else
      var t := s.(browser := Media.RevokeIfPresent(s.browser, s.photoPreview));
      assert Referenced(t) == Referenced(s);
      HandlePhotoUpload(t, file)
  }

  /** `onstop`, revoking the previous playback handle before creating the new one. */
  function OnStopRevoking(s: State, sid: Media.StreamId): (r: State)
    requires Wf(s) && Recording.CanFinish(s.browser, sid)
    ensures Wf(r)
    ensures r.audioBlob == Some(Media.Blob(s.browser.recorders[sid].chunks, Media.AudioMime))
    ensures sid !in r.browser.openStreams
    ensures r.audioUrl.Some? && r.audioUrl.value !in s.browser.liveUrls
    ensures r.browser.liveUrls == s.browser.liveUrls - OptSet(s.audioUrl) + {r.audioUrl.value}
    ensures Leaked(r) == Leaked(s)
    ensures Dangling(r) <= Dangling(s)
  {
    var t := s.(browser := Media.RevokeIfPresent(s.browser, s.audioUrl));
    assert Referenced(t) == Referenced(s);
    OnStop(t, sid)
  }

  /**
    `handleSubmit` that hands the draft's handles to the new message: the same result as
    the code's, except that nothing is revoked.
   */
  function SubmitHandingOver(s: State): (r: State)
    requires Wf(s)
    ensures Wf(r)
    ensures EmptyDraft(s) ==> r == s
    ensures !EmptyDraft(s) ==> r == HandleSubmit(s).(browser := s.browser)
    ensures Leaked(r) == Leaked(s) && Dangling(r) == Dangling(s)
  {
    if EmptyDraft(s) then s
    else
      var w := HandleSubmit(s);
      MessageHandlesAppend(s.messages, w.messages[|s.messages|]);
      assert w.messages == s.messages + [w.messages[|s.messages|]];
      var r := w.(browser := s.browser);
      assert Referenced(r) == Referenced(s);
      r
  }

  /** The two remove handlers revoke exactly the handle they stop referring to. */
  lemma RemovesKeepAccounting(s: State)
    requires Wf(s)
    ensures Leaked(RemovePhoto(s)) == Leaked(s) && Dangling(RemovePhoto(s)) <= Dangling(s)
    ensures Leaked(RemoveAudio(s)) == Leaked(s) && Dangling(RemoveAudio(s)) <= Dangling(s)
  {
    var p := RemovePhoto(s);
    assert p.browser.liveUrls == s.browser.liveUrls - OptSet(s.photoPreview);
    assert Referenced(p) == Referenced(s) - OptSet(s.photoPreview);
    var a := RemoveAudio(s);
    assert a.browser.liveUrls == s.browser.liveUrls - OptSet(s.audioUrl);
    assert Referenced(a) == Referenced(s) - OptSet(s.audioUrl);
  }

  /**
    Every handler the corrections leave alone already keeps the accounting: none creates a
    handle, and the two remove handlers revoke exactly the handle they stop referring to.
   */
  lemma OtherHandlersKeepAccounting(s: State, e: Event)
    requires Wf(s) && Enabled(s, e)
    requires !e.PhotoChosen? && !e.RecorderStopped? && !e.SendClicked?
    ensures Leaked(Step(s, e)) == Leaked(s)
    ensures Dangling(Step(s, e)) <= Dangling(s)
  {
    var r := Step(s, e);
    if e.RemovePhotoClicked? || e.RemoveAudioClicked? {
      RemovesKeepAccounting(s);
    } else if e.ReplyDue? {
      assert r == AssistantReply(s, e.pick);
      assert r.browser == s.browser;
    } else if e.TextEdited? || e.PlayClicked? || e.PlaybackEnded? || e.IntervalFired? {
      assert r.browser == s.browser && Referenced(r) == Referenced(s);
    } else {
      assert r.browser.liveUrls == s.browser.liveUrls && Referenced(r) == Referenced(s);
    }
  }

  /** The corrected machine: the three repaired handlers, every other handler as written. */
  function StepCorrected(s: State, e: Event): (r: State)
    requires Wf(s) && Enabled(s, e)
    ensures Wf(r)
    ensures Leaked(r) == Leaked(s) && Dangling(r) <= Dangling(s)
  {
    match e
    case PhotoChosen(f) => PhotoUploadRevoking(s, f)
    case RecorderStopped(sid) => OnStopRevoking(s, sid)
    case SendClicked => SubmitHandingOver(s)
    case _ => OtherHandlersKeepAccounting(s, e); Step(s, e)
  }

  function RunCorrected(s: State, es: seq<Event>): Option<State>
    requires Wf(s)
    decreases |es|
  {
    if es == [] then Some(s)
    else if Enabled(s, es[0]) then RunCorrected(StepCorrected(s, es[0]), es[1..])
    else None
  }

  /** Whatever the user and the browser do, the corrected composer never leaks or dangles a handle. */
  lemma {:induction false} CorrectedRunsStayExact(s: State, es: seq<Event>)
    requires Wf(s) && Exact(s)
    ensures RunCorrected(s, es).Some? ==> Exact(RunCorrected(s, es).value)
    decreases |es|
  {
    if es != [] && Enabled(s, es[0]) {
      var t := StepCorrected(s, es[0]);
      ExactMeansNoLeakNoDangling(s);
      ExactMeansNoLeakNoDangling(t);
      CorrectedRunsStayExact(t, es[1..]);
    }
  }

  /** The page starts exact, so every reachable state of the corrected composer is exact. */
  lemma CorrectedFromInit(es: seq<Event>)
    ensures RunCorrected(Init, es).Some? ==> Exact(RunCorrected(Init, es).value)
  {
    InitWf();
    CorrectedRunsStayExact(Init, es);
  }
}

=== FILE: common.dfy ===
/** Values that may be absent: the model of a nullable reference or an optional field. */
module Common {

  datatype Option<+T> = None | Some(value: T)
}

=== FILE: dashboard.dfy ===
/**
  The dashboard page: the point totals, the quick "add action" and "invite friend" dialogs
  with their blank-input guards, and the row of friend avatars with its overflow badge.
 */
module Dashboard {
  import opened Common
  import opened Text
  import opened EcoActions

  datatype Friend = Friend(id: string, name: string, points: int, avatar: string)

  /** The page's fixed friend list. */
  const MockFriends: seq<Friend> := [
    Friend("1", "Alex Green", 127, "https://images.unsplash.com/photo-1472099645785-5658abf4ff4e?w=32&h=32&fit=crop&crop=face"),
    Friend("2", "Sarah Earth", 95, "https://images.unsplash.com/photo-1494790108755-2616b612b786?w=32&h=32&fit=crop&crop=face"),
    Friend("3", "Mike Forest", 88, "https://images.unsplash.com/photo-1507003211169-0a1dd7228f2d?w=32&h=32&fit=crop&crop=face")
  ]

  // ---------------------------------------------------------------------------
  // Totals

  /** `xs.reduce((sum, x) => sum + f(x), acc)`: a left fold from `acc`. */
  function Reduce<T>(acc: int, xs: seq<T>, f: T -> int): int
    decreases |xs|
  {
    if xs == [] then acc else Reduce(acc + f(xs[0]), xs[1..], f)
  }

  /** The sum of `f` over `xs`, defined independently of the fold. */
  function Sum<T>(xs: seq<T>, f: T -> int): int
    decreases |xs|
  {
    if xs == [] then 0 else Sum(xs[..|xs| - 1], f) + f(xs[|xs| - 1])
  }

  lemma {:induction false} SumCons<T>(x: T, xs: seq<T>, f: T -> int)
    ensures Sum([x] + xs, f) == f(x) + Sum(xs, f)
    decreases |xs|
  {
    if xs != [] {
      var ys := [x] + xs;
      assert ys[..|ys| - 1] == [x] + xs[..|xs| - 1];
      SumCons(x, xs[..|xs| - 1], f);
    }
  }

  /** The fold from `acc` adds the sum to `acc`. */
  lemma {:induction false} ReduceIsSum<T>(acc: int, xs: seq<T>, f: T -> int)
    ensures Reduce(acc, xs, f) == acc + Sum(xs, f)
    decreases |xs|
  {
    if xs != [] {
      ReduceIsSum(acc + f(xs[0]), xs[1..], f);
      assert xs == [xs[0]] + xs[1..];
      SumCons(xs[0], xs[1..], f);
    }
  }

  function Score(a: EcoAction): int { a.impactScore }
  function Points(f: Friend): int { f.points }

  /** `totalPoints`: the sum of the impact scores of the user's actions. */
  function TotalPoints(actions: seq<EcoAction>): (t: int)
    ensures t == Sum(actions, Score)
  {
    ReduceIsSum(0, actions, Score);
    Reduce(0, actions, Score)
  }

  /** `communityImpact`: the user's points plus every friend's points. */
  function CommunityImpact(actions: seq<EcoAction>, friends: seq<Friend>): (c: int)
    ensures c == Sum(actions, Score) + Sum(friends, Points)
  {
    ReduceIsSum(0, friends, Points);
    TotalPoints(actions) + Reduce(0, friends, Points)
  }

  /** With the page's friends, the community total is the user's points plus 310. */
  lemma CommunityWithMockFriends(actions: seq<EcoAction>)
    ensures CommunityImpact(actions, MockFriends) == TotalPoints(actions) + 310
  {
    var f := MockFriends;
    assert f[..2][..1] == f[..1] && f[..3] == f && f[..1][..0] == [];
    assert Sum(f[..1], Points) == 127;
    assert Sum(f[..2], Points) == 127 + 95;
    assert Sum(f, Points) == 310;
  }

  /**
    A logged action raises both totals by exactly its score; a failed insert, or no user,
    leaves them as they were.
   */
  lemma AddMovesTotalsByScore(st: Store, user: Option<User>, description: string, given: Option<int>,
                              r: real, nowIso: string, outcome: InsertResult, friends: seq<Friend>)
    requires 0.0 <= r < 1.0
    ensures var after := AddEcoAction(st, user, description, given, r, nowIso, outcome).store.actions;
            var gain := if user.Some? && outcome.Inserted? then outcome.record.impactScore else 0;
            && TotalPoints(after) == TotalPoints(st.actions) + gain
            && CommunityImpact(after, friends) == CommunityImpact(st.actions, friends) + gain
  {
    if user.Some? && outcome.Inserted? {
      SumCons(outcome.record, st.actions, Score);
    }
  }

  /** Before the first load the hook holds no action, so the page shows 0 points and the friends' 310. */
  lemma BeforeFirstLoad()
    ensures !Empty.loading
    ensures TotalPoints(Empty.actions) == 0
    ensures CommunityImpact(Empty.actions, MockFriends) == 310
  {
    CommunityWithMockFriends(Empty.actions);
  }

  // ---------------------------------------------------------------------------
  // Dialogs

  /** The page's own state and the hook's store. */
  datatype Page = Page(
    newActionTitle: string,
    inviteEmail: string,
    showAddAction: bool,
    showInviteFriend: bool,
    store: Store)

  /**
    `handleAddAction`: a blank title does nothing. Otherwise the title, untrimmed and with no
    score (so a random one), goes to `addEcoAction`; afterwards the title is cleared and the
    dialog closed whatever the backend answered.
   */
  function HandleAddAction(p: Page, user: Option<User>, r: real, nowIso: string, outcome: InsertResult): (q: Page)
    requires 0.0 <= r < 1.0
    ensures IsBlank(p.newActionTitle) ==> q == p
    ensures !IsBlank(p.newActionTitle) ==>
      && q.newActionTitle == "" && !q.showAddAction
      && q.inviteEmail == p.inviteEmail && q.showInviteFriend == p.showInviteFriend
      && q.store == AddEcoAction(p.store, user, p.newActionTitle, None, r, nowIso, outcome).store
  {
    if IsBlank(p.newActionTitle) then p
    else
      var a := AddEcoAction(p.store, user, p.newActionTitle, None, r, nowIso, outcome);
      p.(newActionTitle := "", showAddAction := false, store := a.store)
  }

  /** A non-blank title that is saved puts exactly one new action, with a score from 1 to 5, in front. */
  lemma AddActionSavesOne(p: Page, u: User, r: real, nowIso: string, rec: EcoAction)
    requires 0.0 <= r < 1.0 && !IsBlank(p.newActionTitle)
    ensures var q := HandleAddAction(p, Some(u), r, nowIso, Inserted(rec));
            && q.store.actions == [rec] + p.store.actions
            && 1 <= AddEcoAction(p.store, Some(u), p.newActionTitle, None, r, nowIso, Inserted(rec)).request.value.impactScore <= 5
  {
    var q := HandleAddAction(p, Some(u), r, nowIso, Inserted(rec));
    assert q.store.actions == [q.store.actions[0]] + q.store.actions[1..];
  }

  /** `inviteFriend`: a blank email does nothing; otherwise the email is cleared and the dialog closed. */
  function InviteFriend(p: Page): (q: Page)
    ensures IsBlank(p.inviteEmail) ==> q == p
    ensures !IsBlank(p.inviteEmail) ==> q.inviteEmail == "" && !q.showInviteFriend
    ensures q == p.(inviteEmail := q.inviteEmail, showInviteFriend := q.showInviteFriend)
  {
    if IsBlank(p.inviteEmail) then p else p.(inviteEmail := "", showInviteFriend := false)
  }

  /** A whitespace-only title or email is as blank as an empty one: nothing happens. */
  lemma WhitespaceInputsIgnored(p: Page, user: Option<User>, r: real, nowIso: string, outcome: InsertResult)
    requires 0.0 <= r < 1.0
    requires AllWhitespace(p.newActionTitle) && AllWhitespace(p.inviteEmail)
    ensures HandleAddAction(p, user, r, nowIso, outcome) == p
    ensures InviteFriend(p) == p
  {
    BlankIffAllWhitespace(p.newActionTitle);
    BlankIffAllWhitespace(p.inviteEmail);
  }

  // ---------------------------------------------------------------------------
  // Avatars

  const MaxAvatars: nat := 3

  /** `friends.slice(0, 3)`: the first three friends, or all of them when there are fewer. */
  function ShownAvatars(friends: seq<Friend>): (r: seq<Friend>)
    ensures |r| <= MaxAvatars && |r| <= |friends| && r == friends[..|r|]
    ensures |r| == MaxAvatars || r == friends
  {
    if |friends| <= MaxAvatars then friends else friends[..MaxAvatars]
  }

  /** The "+n" badge: shown only with more than three friends, counting those not shown. */
  function OverflowBadge(friends: seq<Friend>): (r: Option<nat>)
    ensures r.Some? <==> |friends| > MaxAvatars
    ensures r.Some? ==> r.value >= 1
  {
    if |friends| > MaxAvatars then Some(|friends| - MaxAvatars) else None
  }

  /** Every friend is either drawn as an avatar or counted in the badge, never both. */
  lemma AvatarsAndBadgeCoverFriends(friends: seq<Friend>)
    ensures |ShownAvatars(friends)| + (if OverflowBadge(friends).Some? then OverflowBadge(friends).value else 0) == |friends|
  {
  }
}

=== FILE: eco_action_input.dfy ===
/**
  The EcoActionInput composer: the same draft and recording machine as the assistant's,
  without preview URLs. Sending hands a snapshot of the draft to the `onSubmit` callback
  and then resets the form; the recording flag is left as it is.
 */
module EcoActionInput {
  import opened Common
  import opened Text
  import opened Media
  import Recording

  /** What `onSubmit` receives. */
  datatype ActionData = ActionData(description: string, photo: Option<File>, audioBlob: Option<Blob>)

  datatype State = State(
    description: string,
    photo: Option<File>,
    audioBlob: Option<Blob>,
    session: Recording.Session,
    browser: Browser)

  const Init: State := State("", None, None, Recording.Idle, Fresh)

  ghost predicate Wf(s: State) {
    Recording.Wf(s.session, s.browser)
  }

  lemma InitWf()
    ensures Wf(Init)
  {
    Recording.IdleWf();
  }

  /** The textarea's `onChange`. */
  function EditDescription(s: State, t: string): (r: State)
    requires Wf(s)
    ensures Wf(r) && r.description == t
    ensures r == s.(description := r.description)
  {
    s.(description := t)
  }

  /**
    `handlePhotoUpload`: no file chosen, or a file over 5 MiB, changes nothing; otherwise the
    file becomes the photo and nothing else changes.
   */
  function HandlePhotoUpload(s: State, file: Option<File>): (r: State)
    requires Wf(s)
    ensures Wf(r)
    ensures file.None? || TooLarge(file.value) ==> r == s
    ensures file.Some? && !TooLarge(file.value) ==> r.photo == file
    ensures r == s.(photo := r.photo)
  {
    if file.None? || TooLarge(file.value) then s else s.(photo := file)
  }

  /** `startRecording` (see Recording.Start). */
  function StartRecording(s: State, o: Recording.MicOutcome): (r: State)
    requires Wf(s)
    ensures Wf(r)
    ensures o == Recording.Denied ==> r == s
    ensures o == Recording.Granted ==> r.session.isRecording && r.session.recordingTime == 0
    ensures Recording.Capture(r.session, r.browser) == Recording.Start(s.session, s.browser, o)
    ensures r == s.(session := r.session, browser := r.browser)
  {
    var c := Recording.Start(s.session, s.browser, o);
    s.(session := c.session, browser := c.browser)
  }

  /** One firing of the recording interval. */
  function Tick(s: State): (r: State)
    requires Wf(s)
    ensures Wf(r)
    ensures r.session == s.session.(recordingTime := s.session.recordingTime + 1)
    ensures r == s.(session := r.session)
  {
    s.(session := Recording.Tick(s.session))
  }

  /** `stopRecording`: acts only when a recorder exists and `isRecording` holds. */
  function StopRecording(s: State): (r: State)
    requires Wf(s)
    ensures Wf(r)
    ensures !(s.session.recorderRef.Some? && s.session.isRecording) ==> r == s
    ensures s.session.recorderRef.Some? && s.session.isRecording ==>
      !r.session.isRecording && Recording.CanFinish(r.browser, s.session.recorderRef.value)
    ensures Recording.Capture(r.session, r.browser) == Recording.Stop(s.session, s.browser)
    ensures r == s.(session := r.session, browser := r.browser)
  {
    var c := Recording.Stop(s.session, s.browser);
    s.(session := c.session, browser := c.browser)
  }

  /** `ondataavailable` of the recorder on stream `sid`. */
  function DataAvailable(s: State, sid: StreamId, chunk: Chunk): (r: State)
    requires Wf(s) && Recording.CanDeliver(s.browser, sid)
    ensures Wf(r)
    ensures sid in r.browser.recorders
    ensures r.browser.recorders[sid].chunks == s.browser.recorders[sid].chunks + [chunk]
    ensures r.browser == Recording.DataAvailable(s.browser, sid, chunk)
    ensures r == s.(browser := r.browser)
  {
    Recording.DataAvailableKeepsWf(s.session, s.browser, sid, chunk);
    s.(browser := Recording.DataAvailable(s.browser, sid, chunk))
  }

  /** `onstop`: the recorded chunks become the voice note and every track of the stream stops. */
  function OnStop(s: State, sid: StreamId): (r: State)
    requires Wf(s) && Recording.CanFinish(s.browser, sid)
    ensures Wf(r)
    ensures r.audioBlob == Some(Blob(s.browser.recorders[sid].chunks, AudioMime))
    ensures sid !in r.browser.openStreams && r.browser.openStreams == s.browser.openStreams - {sid}
    ensures r.browser == Recording.Finish(s.browser, sid).browser
    ensures r == s.(audioBlob := r.audioBlob, browser := r.browser)
  {
    Recording.FinishKeepsWf(s.session, s.browser, sid);
    var f := Recording.Finish(s.browser, sid);
    s.(audioBlob := Some(f.blob), browser := f.browser)
  }

  /** `removePhoto`: clears the photo and nothing else. */
  function RemovePhoto(s: State): (r: State)
    requires Wf(s)
    ensures Wf(r) && r.photo.None?
    ensures r == s.(photo := None)
  {
    s.(photo := None)
  }

  /** `removeAudio`: clears the voice note and zeroes the timer; nothing else changes. */
  function RemoveAudio(s: State): (r: State)
    requires Wf(s)
    ensures Wf(r) && r.audioBlob.None? && r.session.recordingTime == 0
    ensures r == s.(audioBlob := None, session := s.session.(recordingTime := 0))
  {
    s.(audioBlob := None, session := s.session.(recordingTime := 0))
  }

  /** The submit guard: blank description, no photo and no voice note. */
  predicate EmptyDraft(s: State) {
    IsBlank(s.description) && s.photo.None? && s.audioBlob.None?
  }

  /** The state after a handler, and the argument `onSubmit` was called with, if it was called. */
  datatype Submitted = Submitted(state: State, sent: Option<ActionData>)

  /**
    `handleSubmit`. An empty draft changes nothing and `onSubmit` is not called. Otherwise
    `onSubmit` is called once with the trimmed description and exactly the attachments
    present, then the description, photo, voice note and timer are reset; `isRecording`
    and the recorder are left alone.
   */
  function HandleSubmit(s: State): (r: Submitted)
    requires Wf(s)
    ensures Wf(r.state)
    ensures r.sent.Some? <==> !EmptyDraft(s)
    ensures EmptyDraft(s) ==> r.state == s
    ensures !EmptyDraft(s) ==>
      && r.sent.value.description == Trim(s.description)
      && r.sent.value.photo == s.photo && r.sent.value.audioBlob == s.audioBlob
      && r.state.description == "" && r.state.photo.None? && r.state.audioBlob.None?
      && r.state.session == s.session.(recordingTime := 0)
      && r.state.browser == s.browser
  {
    if EmptyDraft(s) then Submitted(s, None)
    else
      Submitted(State("", None, None, s.session.(recordingTime := 0), s.browser),
                Some(ActionData(Trim(s.description), s.photo, s.audioBlob)))
  }

  /** A payload with text, a photo or a voice note. */
  predicate Carries(d: ActionData) {
    d.description != "" || d.photo.Some? || d.audioBlob.Some?
  }

  /** What `onSubmit` receives always carries something: text, a photo or a voice note. */
  lemma SentDraftNeverEmpty(s: State)
    requires Wf(s)
    ensures var d := HandleSubmit(s).sent;
            d.Some? ==> Carries(d.value)
  {
  }

  /** The form is cleared as the draft is sent, so sending again at once sends nothing. */
  lemma NoDoubleSubmit(s: State)
    requires Wf(s) && !EmptyDraft(s)
    ensures HandleSubmit(HandleSubmit(s).state).sent.None?
  {
    var t := HandleSubmit(s).state;
    assert t.description == "" && t.photo.None? && t.audioBlob.None?;
    TrimEmpty();
    assert EmptyDraft(t);
  }

  datatype Event =
    | DescriptionEdited(text: string)
    | PhotoChosen(file: Option<File>)
    | MicAnswered(outcome: Recording.MicOutcome)
    | IntervalFired
    | StopClicked
    | ChunkDelivered(sid: StreamId, chunk: Chunk)
    | RecorderStopped(sid: StreamId)
    | RemovePhotoClicked
    | RemoveAudioClicked
    | LogClicked

  predicate Enabled(s: State, e: Event) {
    match e
    case IntervalFired => s.browser.runningTimers != {}
    case ChunkDelivered(sid, _) => Recording.CanDeliver(s.browser, sid)
    case RecorderStopped(sid) => Recording.CanFinish(s.browser, sid)
    case _ => true
  }

  /** One handler run; the callback argument is reported for `LogClicked`. */
  function Step(s: State, e: Event): (r: Submitted)
    requires Wf(s) && Enabled(s, e)
    ensures Wf(r.state)
    ensures r.sent.Some? ==> e.LogClicked? && Carries(r.sent.value)
    ensures r.state.browser.liveUrls == s.browser.liveUrls
  {
    match e
    case DescriptionEdited(t) => Submitted(EditDescription(s, t), None)
    case PhotoChosen(f) => Submitted(HandlePhotoUpload(s, f), None)
    case MicAnswered(o) => Submitted(StartRecording(s, o), None)
    case IntervalFired => Submitted(Tick(s), None)
    case StopClicked => Submitted(StopRecording(s), None)
    case ChunkDelivered(sid, c) => Submitted(DataAvailable(s, sid, c), None)
    case RecorderStopped(sid) => Submitted(OnStop(s, sid), None)
    case RemovePhotoClicked => Submitted(RemovePhoto(s), None)
    case RemoveAudioClicked => Submitted(RemoveAudio(s), None)
    case LogClicked => HandleSubmit(s)
  }

  /** The state a sequence of events leads to, with every payload `onSubmit` received on the way. */
  datatype Trace = Trace(state: State, sent: seq<ActionData>)

  function Run(s: State, es: seq<Event>): (r: Option<Trace>)
    requires Wf(s)
    ensures r.Some? ==> Wf(r.value.state)
    ensures r.Some? ==> forall i :: 0 <= i < |r.value.sent| ==> Carries(r.value.sent[i])
    decreases |es|
  {
    if es == [] then Some(Trace(s, []))
    else if !Enabled(s, es[0]) then None
    else
      var step := Step(s, es[0]);
      var rest := Run(step.state, es[1..]);
      if rest.None? then None
      else
        var now := if step.sent.Some? then [step.sent.value] else [];
        Some(Trace(rest.value.state, now + rest.value.sent))
  }

  /** From page load, whatever the user does, `onSubmit` never receives an empty action. */
  lemma NoEmptyActionEverSent(es: seq<Event>)
    ensures var r := Run(Init, es);
            r.Some? ==> forall i :: 0 <= i < |r.value.sent| ==> Carries(r.value.sent[i])
  {
    InitWf();
  }
}

=== FILE: eco_actions.dfy ===
/**
  The `useEcoActions` hook as list updates. The backend's replies (`Inserted`/`InsertFailed`
  for the insert, `Fetched`/`QueryFailed` for the query), the random draw and the clock are
  inputs; what the hook sends to the backend is an output.
 */
module EcoActions {
  import opened Common

  datatype User = User(id: string, email: string)

  /** A stored action row as the backend returns it. */
  datatype EcoAction = EcoAction(
    id: string,
    description: string,
    impactScore: int,
    actionDate: string,
    friendInvites: int)

  /** The row `addEcoAction` asks the backend to insert. */
  datatype Row = Row(userId: string, description: string, impactScore: int, actionDate: string)

  datatype InsertResult = Inserted(record: EcoAction) | InsertFailed
  /** A successful query's `data` may be null. */
  datatype QueryResult = Fetched(data: Option<seq<EcoAction>>) | QueryFailed

  /** The hook's state: the action list, newest first as the backend orders it, and the loading flag. */
  datatype Store = Store(actions: seq<EcoAction>, loading: bool)

  const Empty: Store := Store([], false)

  /**
    `new Date().toISOString().split('T')[0]`: the text of the timestamp before its first 'T'
    (all of it when there is none).
   */
  function DatePart(iso: string): (d: string)
    ensures |d| <= |iso| && d == iso[..|d|]
    ensures 'T' !in d
    ensures |d| < |iso| ==> iso[|d|] == 'T'
  {
    if iso == [] || iso[0] == 'T' then [] else [iso[0]] + DatePart(iso[1..])
  }

  /** A date followed by 'T' and a time gives back exactly that date. */
  lemma DatePartOfTimestamp(date: string, time: string)
    requires 'T' !in date
    ensures DatePart(date + "T" + time) == date
  {
    var iso := date + "T" + time;
    var d := DatePart(iso);
    assert iso[|date|] == 'T';
    assert forall k :: 0 <= k < |date| ==> iso[k] == date[k];
    assert |d| == |date|;
    assert iso[..|date|] == date;
  }

  /** `Math.floor(Math.random() * 5) + 1` for a draw `r` of `Math.random()`. */
  function RandomScore(r: real): (k: int)
    requires 0.0 <= r < 1.0
    ensures 1 <= k <= 5
  {
    (r * 5.0).Floor + 1
  }

  /** Each of the five scores is drawn on a fifth of the range: on `[(k-1)/5, k/5)`. */
  lemma RandomScoreBands(r: real, k: int)
    requires 0.0 <= r < 1.0 && 1 <= k <= 5
    ensures RandomScore(r) == k <==> (k - 1) as real <= r * 5.0 < k as real
  {
  }

  /**
    `impactScore || Math.floor(Math.random() * 5) + 1`: the caller's score unless it is
    missing or zero (both falsy), in which case a random score from 1 to 5.
   */
  function ScoreFor(given: Option<int>, r: real): (k: int)
    requires 0.0 <= r < 1.0
    ensures given.Some? && given.value != 0 ==> k == given.value
    ensures given.None? || given.value == 0 ==> k == RandomScore(r) && 1 <= k <= 5
  {
    if given.Some? && given.value != 0 then given.value else RandomScore(r)
  }

  /** The result of `addEcoAction`: the new state and the row sent to the backend, if any. */
  datatype Added = Added(store: Store, request: Option<Row>)

  /**
    `addEcoAction`. Without a user nothing is sent and nothing changes. Otherwise one row is
    sent with the description as given, the score from `ScoreFor` and today's date; on success
    the returned record is put in front of the list, on failure the list is unchanged.
   */
  function AddEcoAction(st: Store, user: Option<User>, description: string, given: Option<int>,
                        r: real, nowIso: string, outcome: InsertResult): (a: Added)
    requires 0.0 <= r < 1.0
    ensures user.None? ==> a.request.None? && a.store == st
    ensures user.Some? ==>
      && a.request.Some?
      && a.request.value.userId == user.value.id
      && a.request.value.description == description
      && a.request.value.impactScore == ScoreFor(given, r)
      && a.request.value.actionDate == DatePart(nowIso)
    ensures user.Some? && outcome.Inserted? ==>
      && |a.store.actions| == |st.actions| + 1
      && a.store.actions[0] == outcome.record
      && a.store.actions[1..] == st.actions
    ensures user.Some? && outcome.InsertFailed? ==> a.store == st
    ensures a.store.loading == st.loading
  {
    match user
    case None => Added(st, None)
    case Some(u) =>
      var row := Row(u.id, description, ScoreFor(given, r), DatePart(nowIso));
      match outcome
      case Inserted(rec) => Added(st.(actions := [rec] + st.actions), Some(row))
      case InsertFailed => Added(st, Some(row))
  }

  /**
    `fetchEcoActions`. Without a user nothing changes. Otherwise loading ends; a successful
    query replaces the list by its data (empty when the data is null), a failed one keeps it.
   */
  function FetchEcoActions(st: Store, user: Option<User>, outcome: QueryResult): (r: Store)
    ensures user.None? ==> r == st
    ensures user.Some? ==> !r.loading
    ensures user.Some? && outcome.Fetched? && outcome.data.Some? ==> r.actions == outcome.data.value
    ensures user.Some? && outcome.Fetched? && outcome.data.None? ==> r.actions == []
    ensures user.Some? && outcome.QueryFailed? ==> r.actions == st.actions
  {
    if user.None? then st
    else match outcome
      case Fetched(data) => Store(if data.Some? then data.value else [], false)
      case QueryFailed => st.(loading := false)
  }

  /** Fetching twice with the same answer is the same as fetching once. */
  lemma FetchIdempotent(st: Store, user: Option<User>, outcome: QueryResult)
    ensures FetchEcoActions(FetchEcoActions(st, user, outcome), user, outcome) == FetchEcoActions(st, user, outcome)
  {
  }
}

=== FILE: eco_assistant.dfy ===
/**
  The EcoAssistant chat composer as written: a draft of text, at most one photo with its
  preview URL and at most one voice note with its playback URL, a recording session, and
  the message list. Every handler is a pure transition of `State`; the browser resources
  (which object URLs are live, which streams are open) are part of the state so that the
  lifecycle of every preview handle can be followed.

  Three places where the code loses track of a handle are stated here as lemmas
  (`ReplacingPhotoLeaksPreview`, `RerecordingLeaksAudioUrl`, `SubmitLeavesMessagesDangling`);
  module AssistantCorrected gives the repaired handlers.
 */
module EcoAssistant {
  import opened Common
  import opened Text
  import opened Media
  import Recording

  datatype Role = User | Bot

  /** A chat message; `photo` and `audioUrl` are the object URLs it displays. */
  datatype Message = Message(role: Role, content: string, photo: Option<Handle>, audioUrl: Option<Handle>)

  /** The content of a user message sent with blank text. */
  const MediaOnlyContent: string := "Shared media attachment"

  /** The assistant's canned replies, one picked per sent message. */
  const CannedResponses: seq<string> := [
    "That's a great eco-friendly choice! Based on your activity, I'd suggest tracking your carbon footprint reduction.",
    "Your commitment to sustainability is inspiring! Have you considered documenting the environmental impact of this action?",
    "Excellent question! For eco activities like this, I recommend measuring the long-term benefits and sharing with your community.",
    "That's an interesting approach to environmental conservation. You might want to explore similar actions that could amplify your impact.",
    "Great eco initiative! Consider setting up a routine around this activity to maximize your environmental contribution."
  ]

  /**
    The component's state variables, the number of assistant replies still scheduled, the
    recording session, and the browser resources it uses.
   */
  datatype State = State(
    text: string,
    photo: Option<File>,
    photoPreview: Option<Handle>,
    audioBlob: Option<Blob>,
    audioUrl: Option<Handle>,
    isPlaying: bool,
    isLoading: bool,
    pendingReplies: nat,
    messages: seq<Message>,
    session: Recording.Session,
    browser: Browser)

  const Init: State := State("", None, None, None, None, false, false, 0, [], Recording.Idle, Fresh)

  // ---------------------------------------------------------------------------
  // Which handles the component refers to

  function OptSet(o: Option<Handle>): (r: set<Handle>)
    ensures o.None? ==> r == {}
    ensures o.Some? ==> r == {o.value}
  {
    if o.Some? then {o.value} else {}
  }

  function HandlesOf(m: Message): set<Handle> {
    OptSet(m.photo) + OptSet(m.audioUrl)
  }

  /** Every object URL some message displays. */
  function MessageHandles(ms: seq<Message>): set<Handle> {
    if ms == [] then {} else MessageHandles(ms[..|ms| - 1]) + HandlesOf(ms[|ms| - 1])
  }

  lemma MessageHandlesAppend(ms: seq<Message>, m: Message)
    ensures MessageHandles(ms + [m]) == MessageHandles(ms) + HandlesOf(m)
  {
    assert (ms + [m])[..|ms|] == ms;
  }

  /** `MessageHandles` collects exactly the handles of the individual messages. */
  lemma {:induction false} MessageHandlesSpec(ms: seq<Message>, h: Handle)
    ensures h in MessageHandles(ms) <==> exists i :: 0 <= i < |ms| && h in HandlesOf(ms[i])
  {
    if ms != [] {
      var init := ms[..|ms| - 1];
      MessageHandlesSpec(init, h);
      if h in MessageHandles(init) {
        var i :| 0 <= i < |init| && h in HandlesOf(init[i]);
        assert ms[i] == init[i];
      }
      if i :| 0 <= i < |ms| && h in HandlesOf(ms[i]) {
        if i < |ms| - 1 { assert ms[i] == init[i]; }
      }
    }
  }

  /** The preview handles the draft holds. */
  function DraftHandles(s: State): set<Handle> {
    OptSet(s.photoPreview) + OptSet(s.audioUrl)
  }

  function Referenced(s: State): set<Handle> {
    DraftHandles(s) + MessageHandles(s.messages)
  }

  /** Live handles nothing refers to any more: they can never be revoked. */
  function Leaked(s: State): set<Handle> {
    s.browser.liveUrls - Referenced(s)
  }

  /** Handles something still displays although they were revoked. */
  function Dangling(s: State): set<Handle> {
    Referenced(s) - s.browser.liveUrls
  }

  /**
    The invariant of reachable states: the recording session is consistent, each attachment
    has its URL, playback only runs with a voice note, every referenced handle was handed out
    by the counter, and the draft's two handles are distinct and shared with no message.
   */
  ghost predicate Wf(s: State) {
    && Recording.Wf(s.session, s.browser)
    && (s.photo.Some? <==> s.photoPreview.Some?)
    && (s.audioBlob.Some? <==> s.audioUrl.Some?)
    && (s.isPlaying ==> s.audioUrl.Some?)
    && (s.isLoading ==> s.pendingReplies > 0)
    && (forall h :: h in Referenced(s) ==> h < s.browser.next)
    && (s.photoPreview.Some? && s.audioUrl.Some? ==> s.photoPreview.value != s.audioUrl.value)
    && DraftHandles(s) !! MessageHandles(s.messages)
  }

  lemma InitWf()
    ensures Wf(Init)
    ensures Leaked(Init) == {} && Dangling(Init) == {}
  {
    Recording.IdleWf();
  }

  // ---------------------------------------------------------------------------
  // Handlers

  /** The textarea's `onChange`. */
  function EditText(s: State, t: string): (r: State)
    requires Wf(s)
    ensures Wf(r) && r.text == t
    ensures r == s.(text := r.text)
  {
    s.(text := t)
  }

  /**
    `handlePhotoUpload`: no file chosen, or a file over 5 MiB, changes nothing. Otherwise the
    file becomes the photo with a freshly created preview handle; the previous preview
    handle is not revoked.
   */
  function HandlePhotoUpload(s: State, file: Option<File>): (r: State)
    requires Wf(s)
    ensures Wf(r)
    ensures file.None? || TooLarge(file.value) ==> r == s
    ensures file.Some? && !TooLarge(file.value) ==>
      && r.photo == file && r.photoPreview.Some?
      && var h := r.photoPreview.value;
         && h !in s.browser.liveUrls && h !in Referenced(s)
         && r.browser.liveUrls == s.browser.liveUrls + {h}
    ensures r == s.(photo := r.photo, photoPreview := r.photoPreview, browser := r.browser)
    ensures r.browser.openStreams == s.browser.openStreams && r.browser.recorders == s.browser.recorders
    ensures r.browser.runningTimers == s.browser.runningTimers
  {
    if file.None? || TooLarge(file.value) then s
    else
      var c := CreateObjectUrl(s.browser);
      var r := s.(photo := file, photoPreview := Some(c.url), browser := c.browser);
      Recording.UrlsFrame(s.session, s.browser, c.browser);
      assert c.url !in Referenced(s);
      assert DraftHandles(r) <= DraftHandles(s) + {c.url};
      assert Referenced(r) <= Referenced(s) + {c.url};
      r
  }

  /** `startRecording` (see Recording.Start); the draft and the URLs are untouched. */
  function StartRecording(s: State, o: Recording.MicOutcome): (r: State)
    requires Wf(s)
    ensures Wf(r)
    ensures o == Recording.Denied ==> r == s
    ensures o == Recording.Granted ==> r.session.isRecording && r.session.recordingTime == 0
    ensures Recording.Capture(r.session, r.browser) == Recording.Start(s.session, s.browser, o)
    ensures r == s.(session := r.session, browser := r.browser)
    ensures r.browser.liveUrls == s.browser.liveUrls
  {
    var c := Recording.Start(s.session, s.browser, o);
    s.(session := c.session, browser := c.browser)
  }

  /** One firing of the recording interval: the timer reads one second more. */
  function Tick(s: State): (r: State)
    requires Wf(s)
    ensures Wf(r)
    ensures r.session == s.session.(recordingTime := s.session.recordingTime + 1)
    ensures Referenced(r) == Referenced(s) && Leaked(r) == Leaked(s)
    ensures r == s.(session := r.session)
  {
    s.(session := Recording.Tick(s.session))
  }

  /** `stopRecording`: a no-op unless a recorder exists and `isRecording` holds. */
  function StopRecording(s: State): (r: State)
    requires Wf(s)
    ensures Wf(r)
    ensures !(s.session.recorderRef.Some? && s.session.isRecording) ==> r == s
    ensures s.session.recorderRef.Some? && s.session.isRecording ==>
      && !r.session.isRecording
      && Recording.CanFinish(r.browser, s.session.recorderRef.value)
      && s.session.timerRef.value !in r.browser.runningTimers
    ensures Recording.Capture(r.session, r.browser) == Recording.Stop(s.session, s.browser)
    ensures r == s.(session := r.session, browser := r.browser)
    ensures r.session.recordingTime == s.session.recordingTime
    ensures r.browser.liveUrls == s.browser.liveUrls
  {
    var c := Recording.Stop(s.session, s.browser);
    s.(session := c.session, browser := c.browser)
  }

  /** `ondataavailable` of the recorder on stream `sid`. */
  function DataAvailable(s: State, sid: StreamId, chunk: Chunk): (r: State)
    requires Wf(s) && Recording.CanDeliver(s.browser, sid)
    ensures Wf(r)
    ensures sid in r.browser.recorders
    ensures r.browser.recorders[sid].chunks == s.browser.recorders[sid].chunks + [chunk]
    ensures r.browser == Recording.DataAvailable(s.browser, sid, chunk)
    ensures r == s.(browser := r.browser)
  {
    Recording.DataAvailableKeepsWf(s.session, s.browser, sid, chunk);
    var r := s.(browser := Recording.DataAvailable(s.browser, sid, chunk));
    assert Referenced(r) == Referenced(s);
    r
  }

  /**
    `onstop` of the recorder on stream `sid`: the recorded chunks become the voice note, a
    fresh playback handle is created for it, and every track of the stream is stopped. The
    previous playback handle, if any, is not revoked.
   */
  function OnStop(s: State, sid: StreamId): (r: State)
    requires Wf(s) && Recording.CanFinish(s.browser, sid)
    ensures Wf(r)
    ensures r.audioBlob == Some(Blob(s.browser.recorders[sid].chunks, AudioMime))
    ensures sid !in r.browser.openStreams && r.browser.openStreams == s.browser.openStreams - {sid}
    ensures r.audioUrl.Some? && r.audioUrl.value !in s.browser.liveUrls && r.audioUrl.value !in Referenced(s)
    ensures r.browser.liveUrls == s.browser.liveUrls + {r.audioUrl.value}
    ensures r.browser == Recording.Finish(s.browser, sid).browser.(liveUrls := r.browser.liveUrls, next := r.browser.next)
    ensures r == s.(audioBlob := r.audioBlob, audioUrl := r.audioUrl, browser := r.browser)
  {
    Recording.FinishKeepsWf(s.session, s.browser, sid);
    var f := Recording.Finish(s.browser, sid);
    var c := CreateObjectUrl(f.browser);
    s.(audioBlob := Some(f.blob), audioUrl := Some(c.url), browser := c.browser)
  }

  /** `playAudio`: toggles playback, but only when there is a voice note to play. */
  function PlayAudio(s: State): (r: State)
    requires Wf(s)
    ensures Wf(r)
    ensures s.audioUrl.None? ==> r == s
    ensures s.audioUrl.Some? ==> r.isPlaying == !s.isPlaying
    ensures r == s.(isPlaying := r.isPlaying)
  {
    if s.audioUrl.Some? then s.(isPlaying := !s.isPlaying) else s
  }

  /** Pressing play twice returns to the same state. */
  lemma PlayAudioTwice(s: State)
    requires Wf(s)
    ensures PlayAudio(PlayAudio(s)) == s
  {
  }

  /** The audio element's `onEnded`. */
  function AudioEnded(s: State): (r: State)
    requires Wf(s)
    ensures Wf(r) && !r.isPlaying
    ensures r == s.(isPlaying := r.isPlaying)
  {
    s.(isPlaying := false)
  }

  /** `removePhoto`: clears the photo, and revokes its preview handle only if there is one. */
  function RemovePhoto(s: State): (r: State)
    requires Wf(s)
    ensures Wf(r)
    ensures r.photo.None? && r.photoPreview.None?
    ensures r.browser.liveUrls == s.browser.liveUrls - OptSet(s.photoPreview)
    ensures r.browser == s.browser.(liveUrls := r.browser.liveUrls)
    ensures Referenced(r) == Referenced(s) - OptSet(s.photoPreview)
    ensures r == s.(photo := None, photoPreview := None, browser := r.browser)
  {
    var r := s.(photo := None, photoPreview := None, browser := RevokeIfPresent(s.browser, s.photoPreview));
    Recording.UrlsFrame(s.session, s.browser, r.browser);
    assert DraftHandles(r) == DraftHandles(s) - OptSet(s.photoPreview);
    assert Referenced(r) == Referenced(s) - OptSet(s.photoPreview);
    r
  }

  /**
    `removeAudio`: clears the voice note, revokes its playback handle only if there is one,
    and zeroes the timer and the playing flag.
   */
  function RemoveAudio(s: State): (r: State)
    requires Wf(s)
    ensures Wf(r)
    ensures r.audioBlob.None? && r.audioUrl.None? && r.session.recordingTime == 0 && !r.isPlaying
    ensures r.browser.liveUrls == s.browser.liveUrls - OptSet(s.audioUrl)
    ensures r.browser == s.browser.(liveUrls := r.browser.liveUrls)
    ensures Referenced(r) == Referenced(s) - OptSet(s.audioUrl)
    ensures r == s.(audioBlob := None, audioUrl := None, isPlaying := false,
                    session := s.session.(recordingTime := 0), browser := r.browser)
  {
    var r := s.(audioBlob := None, audioUrl := None, isPlaying := false,
                session := s.session.(recordingTime := 0),
                browser := RevokeIfPresent(s.browser, s.audioUrl));
    Recording.UrlsFrame(s.session.(recordingTime := 0), s.browser, r.browser);
    assert DraftHandles(r) == DraftHandles(s) - OptSet(s.audioUrl);
    assert Referenced(r) == Referenced(s) - OptSet(s.audioUrl);
    r
  }

  /** Removing an attachment a second time changes nothing. */
  lemma RemoveIdempotent(s: State)
    requires Wf(s)
    ensures RemovePhoto(RemovePhoto(s)) == RemovePhoto(s)
    ensures RemoveAudio(RemoveAudio(s)) == RemoveAudio(s)
  {
  }

  /** The submit guard: blank text, no photo and no voice note. */
  predicate EmptyDraft(s: State) {
    IsBlank(s.text) && s.photo.None? && s.audioBlob.None?
  }

  /**
    `handleSubmit`. An empty draft changes nothing. Otherwise exactly one user message is
    appended, carrying the trimmed text (or the media-only content when the text is blank)
    and the draft's two preview handles; an assistant reply is scheduled; the draft, the
    timer and playback are reset; and both preview handles are revoked, although the new
    message still displays them.
   */
  function HandleSubmit(s: State): (r: State)
    requires Wf(s)
    ensures Wf(r)
    ensures EmptyDraft(s) ==> r == s
    ensures !EmptyDraft(s) ==>
      && |r.messages| == |s.messages| + 1 && r.messages[..|s.messages|] == s.messages
      && (var m := r.messages[|s.messages|];
          && m.role == User
          && (!IsBlank(s.text) ==> m.content == Trim(s.text))
          && (IsBlank(s.text) ==> m.content == MediaOnlyContent)
          && m.photo == s.photoPreview && m.audioUrl == s.audioUrl)
      && r.text == "" && r.photo.None? && r.photoPreview.None? && r.audioBlob.None? && r.audioUrl.None?
      && r.session == s.session.(recordingTime := 0) && !r.isPlaying
      && r.isLoading && r.pendingReplies == s.pendingReplies + 1
      && r.browser.liveUrls == s.browser.liveUrls - DraftHandles(s)
      && r.browser.openStreams == s.browser.openStreams
    ensures r.browser == s.browser.(liveUrls := r.browser.liveUrls)
  {
    if EmptyDraft(s) then s
    else
      SentWf(s);
      Sent(s)
  }

  /** The user message a non-empty draft becomes. */
  function Outgoing(s: State): Message {
    var content := if IsBlank(s.text) then MediaOnlyContent else Trim(s.text);
    Message(User, content, s.photoPreview, s.audioUrl)
  }

  /** The state right after a non-empty draft was sent. */
  function Sent(s: State): State {
    var b := RevokeIfPresent(RevokeIfPresent(s.browser, s.photoPreview), s.audioUrl);
    State("", None, None, None, None, false, true, s.pendingReplies + 1,
          s.messages + [Outgoing(s)], s.session.(recordingTime := 0), b)
  }

  lemma SentWf(s: State)
    requires Wf(s)
    ensures Wf(Sent(s))
    ensures Sent(s).browser.liveUrls == s.browser.liveUrls - DraftHandles(s)
    ensures Referenced(Sent(s)) == Referenced(s)
  {
    var r := Sent(s);
    var b0 := RevokeIfPresent(s.browser, s.photoPreview);
    assert r.browser.liveUrls == s.browser.liveUrls - DraftHandles(s);
    Recording.UrlsFrame(s.session, s.browser, b0);
    Recording.UrlsFrame(s.session, b0, r.browser);
    assert Recording.Wf(r.session, r.browser);
    MessageHandlesAppend(s.messages, Outgoing(s));
    assert DraftHandles(r) == {};
    assert Referenced(r) == Referenced(s);
  }

  /** The delayed reply: one canned assistant message is appended and loading ends. */
  function AssistantReply(s: State, k: nat): (r: State)
    requires Wf(s) && s.pendingReplies > 0 && k < |CannedResponses|
    ensures Wf(r)
    ensures r.messages == s.messages + [Message(Bot, CannedResponses[k], None, None)]
    ensures !r.isLoading && r.pendingReplies == s.pendingReplies - 1
    ensures Referenced(r) == Referenced(s)
    ensures r == s.(messages := r.messages, isLoading := false, pendingReplies := r.pendingReplies)
  {
    var m := Message(Bot, CannedResponses[k], None, None);
    MessageHandlesAppend(s.messages, m);
    s.(messages := s.messages + [m], isLoading := false, pendingReplies := s.pendingReplies - 1)
  }

  // ---------------------------------------------------------------------------
  // The machine

  datatype Event =
    | TextEdited(text: string)
    | PhotoChosen(file: Option<File>)
    | MicAnswered(outcome: Recording.MicOutcome)
    | IntervalFired
    | StopClicked
    | ChunkDelivered(sid: StreamId, chunk: Chunk)
    | RecorderStopped(sid: StreamId)
    | PlayClicked
    | PlaybackEnded
    | RemovePhotoClicked
    | RemoveAudioClicked
    | SendClicked
    | ReplyDue(pick: nat)

  /** Events the environment can only deliver in some states. */
  predicate Enabled(s: State, e: Event) {
    match e
    case IntervalFired => s.browser.runningTimers != {}
    case ChunkDelivered(sid, _) => Recording.CanDeliver(s.browser, sid)
    case RecorderStopped(sid) => Recording.CanFinish(s.browser, sid)
    case ReplyDue(k) => s.pendingReplies > 0 && k < |CannedResponses|
    case _ => true
  }

  function Step(s: State, e: Event): (r: State)
    requires Wf(s) && Enabled(s, e)
    ensures Wf(r)
  {
    match e
    case TextEdited(t) => EditText(s, t)
    case PhotoChosen(f) => HandlePhotoUpload(s, f)
    case MicAnswered(o) => StartRecording(s, o)
    case IntervalFired => Tick(s)
    case StopClicked => StopRecording(s)
    case ChunkDelivered(sid, c) => DataAvailable(s, sid, c)
    case RecorderStopped(sid) => OnStop(s, sid)
    case PlayClicked => PlayAudio(s)
    case PlaybackEnded => AudioEnded(s)
    case RemovePhotoClicked => RemovePhoto(s)
    case RemoveAudioClicked => RemoveAudio(s)
    case SendClicked => HandleSubmit(s)
    case ReplyDue(k) => AssistantReply(s, k)
  }

  /**
    The state a sequence of events leads to, or None when some event in it cannot be
    delivered in the state it meets. Every state reached is consistent.
   */
  function Run(s: State, es: seq<Event>): (r: Option<State>)
    requires Wf(s)
    ensures r.Some? ==> Wf(r.value)
    ensures es == [] ==> r == Some(s)
    decreases |es|
  {
    if es == [] then Some(s)
    else if Enabled(s, es[0]) then Run(Step(s, es[0]), es[1..])
    else None
  }

  /** Every state the component reaches from page load is consistent. */
  lemma RunsFromInitStayWf(es: seq<Event>)
    ensures Run(Init, es).Some? ==> Wf(Run(Init, es).value)
  {
    InitWf();
  }

  // ---------------------------------------------------------------------------
  // Properties of the handlers

  /** A 5 MiB photo is accepted; one byte more and the state is unchanged. */
  lemma PhotoSizeBoundary(s: State, name: string)
    requires Wf(s)
    ensures HandlePhotoUpload(s, Some(File(name, MaxPhotoBytes))).photo == Some(File(name, MaxPhotoBytes))
    ensures HandlePhotoUpload(s, Some(File(name, MaxPhotoBytes + 1))) == s
  {
  }

  /** An empty draft never produces a message, whatever else the state holds. */
  lemma SubmitAppendsIffDraftNonEmpty(s: State)
    requires Wf(s)
    ensures |HandleSubmit(s).messages| == |s.messages| + (if EmptyDraft(s) then 0 else 1)
    ensures HandleSubmit(s).messages[..|s.messages|] == s.messages
  {
  }

  /**
    Recording for three seconds: after the microphone is granted, the interval fires three
    times and stop is clicked, the timer reads "0:03"; once the recorder's `onstop` has run
    the voice note is there and the stream is closed.
   */
  lemma ThreeSecondNote(s: State)
    requires Wf(s)
    ensures var s1 := StartRecording(s, Recording.Granted);
            var s2 := Tick(Tick(Tick(s1)));
            var s3 := StopRecording(s2);
            var sid := s1.session.recorderRef.value;
            && FormatTime(s3.session.recordingTime) == "0:03"
            && Recording.CanFinish(s3.browser, sid)
            && var s4 := OnStop(s3, sid);
               && s4.audioBlob.Some? && s4.audioUrl.Some?
               && sid !in s4.browser.openStreams
               && FormatTime(s4.session.recordingTime) == "0:03"
  {
    var s1 := StartRecording(s, Recording.Granted);
    var sid := s1.session.recorderRef.value;
    var s2 := Tick(Tick(Tick(s1)));
    assert s2.session.recordingTime == 3 && s2.session.isRecording;
    assert s2.session.recorderRef == Some(sid) && s2.browser == s1.browser;
    var s3 := StopRecording(s2);
    assert s3.session.recordingTime == 3 && Recording.CanFinish(s3.browser, sid);
    var s4 := OnStop(s3, sid);
    assert s4.session == s3.session;
    FormatThreeSeconds();
  }

  // ---------------------------------------------------------------------------
  // Where the code loses track of a handle

  /**
    Choosing a second photo leaks the first preview: the old handle stays live but nothing
    refers to it any more, so no later handler can revoke it.
   */
  lemma ReplacingPhotoLeaksPreview(s: State, f: File)
    requires Wf(s) && !TooLarge(f)
    requires s.photoPreview.Some? && s.photoPreview.value in s.browser.liveUrls
    ensures var r := HandlePhotoUpload(s, Some(f));
            Leaked(r) == Leaked(s) + {s.photoPreview.value}
  {
  }

  /**
    Recording a second voice note without removing the first leaks the first playback handle.
   */
  lemma RerecordingLeaksAudioUrl(s: State, sid: StreamId)
    requires Wf(s) && Recording.CanFinish(s.browser, sid)
    requires s.audioUrl.Some? && s.audioUrl.value in s.browser.liveUrls
    ensures Leaked(OnStop(s, sid)) == Leaked(s) + {s.audioUrl.value}
  {
  }

  /**
    Sending revokes the very handles the new message displays: every preview handle of the
    draft becomes dangling.
   */
  lemma SubmitLeavesMessagesDangling(s: State)
    requires Wf(s) && !EmptyDraft(s)
    ensures var r := HandleSubmit(s);
            && Dangling(r) == Dangling(s) + DraftHandles(s)
            && HandlesOf(r.messages[|s.messages|]) == DraftHandles(s)
  {
    MessageHandlesAppend(s.messages, HandleSubmit(s).messages[|s.messages|]);
  }

  /** Concretely: two photos chosen one after the other leave handle 0 live and unreferenced. */
  lemma PhotoLeakExample()
    ensures var s := HandlePhotoUpload(HandlePhotoUpload(Init, Some(File("a.jpg", 10))), Some(File("b.jpg", 10)));
            Leaked(s) == {0} && s.photoPreview == Some(1)
  {
    InitWf();
  }

  /** Concretely: a photo sent on its own shows in the chat through the revoked handle 0. */
  lemma DanglingMessageExample()
    ensures var s := HandleSubmit(HandlePhotoUpload(Init, Some(File("a.jpg", 10))));
            && s.messages == [Message(User, MediaOnlyContent, Some(0), None)]
            && 0 !in s.browser.liveUrls
  {
    InitWf();
    var s1 := HandlePhotoUpload(Init, Some(File("a.jpg", 10)));
    assert s1.photoPreview == Some(0) && s1.audioUrl.None? && s1.messages == [];
    assert s1.text == "" && s1.photo.Some?;
    TrimEmpty();
    assert IsBlank(s1.text) && !EmptyDraft(s1);
    var s2 := HandleSubmit(s1);
    assert |s2.messages| == 1;
    assert s2.messages[0] == Message(User, MediaOnlyContent, Some(0), None);
  }
}

=== FILE: media.dfy ===
/**
  The browser resources the composers touch, seen from outside: object URLs
  (`URL.createObjectURL` / `URL.revokeObjectURL`), microphone streams, MediaRecorder
  instances and interval timers. Each is named by an id drawn from one fresh-id counter,
  so "freshly created" means "not live before". Only the bookkeeping is modelled: which
  handles are live, which streams still have running tracks, which recorders are in
  which phase, which intervals still fire.
 */
module Media {
  import opened Common

  /** An object URL returned by `URL.createObjectURL`. */
  type Handle = nat
  /** A `MediaStream` returned by `getUserMedia`; it also names the recorder built on it. */
  type StreamId = nat
  /** An interval returned by `setInterval`. */
  type TimerId = nat

  /** The photo size limit both composers enforce: 5 MiB. */
  const MaxPhotoBytes: nat := 5 * 1024 * 1024

  /** A file picked from the file input. */
  datatype File = File(name: string, size: nat)

  /** One `dataavailable` payload. */
  datatype Chunk = Chunk(bytes: seq<bv8>)

  /** A `Blob` built from recorded chunks. */
  datatype Blob = Blob(chunks: seq<Chunk>, mime: string)

  /** The MIME type the recorders' `onstop` handlers give the finished blob. */
  const AudioMime: string := "audio/wav"

  /**
    A MediaRecorder: `Active` while recording, `Stopping` once `stop()` was called and its
    `onstop` handler has not yet run, `Inactive` after that handler ran.
   */
  datatype Phase = Active | Stopping | Inactive
  datatype Recorder = Recorder(chunks: seq<Chunk>, phase: Phase)

  datatype Browser = Browser(
    liveUrls: set<Handle>,
    openStreams: set<StreamId>,
    recorders: map<StreamId, Recorder>,
    runningTimers: set<TimerId>,
    next: nat)

  /** No resource yet: the page has just loaded. */
  const Fresh: Browser := Browser({}, {}, map[], {}, 0)

  /**
    Every id in use is below the counter, and a stream has running tracks exactly
    while the recorder built on it has not finished.
   */
  ghost predicate Wf(b: Browser) {
    && (forall h :: h in b.liveUrls ==> h < b.next)
    && (forall t :: t in b.runningTimers ==> t < b.next)
    && (forall sid :: sid in b.recorders ==> sid < b.next)
    && (forall sid :: sid in b.openStreams <==> sid in b.recorders && b.recorders[sid].phase != Inactive)
  }

  lemma FreshWf()
    ensures Wf(Fresh)
  {
  }

  /** The photo guard `file.size > 5 * 1024 * 1024`: the file is refused. */
  predicate TooLarge(f: File) {
    f.size > MaxPhotoBytes
  }

  /** A file of exactly 5 MiB passes the guard; one byte more does not. */
  lemma PhotoLimitBoundary()
    ensures !TooLarge(File("photo.jpg", 5242880))
    ensures TooLarge(File("photo.jpg", 5242881))
  {
  }

  datatype Created = Created(browser: Browser, url: Handle)

  /** `URL.createObjectURL`: a handle that was not live becomes live; nothing else changes. */
  function CreateObjectUrl(b: Browser): (r: Created)
    requires Wf(b)
    ensures Wf(r.browser)
    ensures r.url !in b.liveUrls && r.browser.liveUrls == b.liveUrls + {r.url}
    ensures r.url == b.next && r.browser.next > r.url
    ensures r.browser.openStreams == b.openStreams && r.browser.recorders == b.recorders
    ensures r.browser.runningTimers == b.runningTimers
  {
    Created(b.(liveUrls := b.liveUrls + {b.next}, next := b.next + 1), b.next)
  }

  /** `URL.revokeObjectURL`: the handle is no longer live (revoking a dead one does nothing). */
  function RevokeObjectUrl(b: Browser, h: Handle): (r: Browser)
    ensures Wf(b) ==> Wf(r)
    ensures r.liveUrls == b.liveUrls - {h}
    ensures h !in b.liveUrls ==> r == b
    ensures r.openStreams == b.openStreams && r.recorders == b.recorders
    ensures r.runningTimers == b.runningTimers && r.next == b.next
  {
    b.(liveUrls := b.liveUrls - {h})
  }

  /** Revokes the handle in an optional slot, if there is one. */
  function RevokeIfPresent(b: Browser, h: Option<Handle>): (r: Browser)
    ensures Wf(b) ==> Wf(r)
    ensures h.Some? ==> r.liveUrls == b.liveUrls - {h.value}
    ensures h.None? ==> r == b
    ensures r.openStreams == b.openStreams && r.recorders == b.recorders
    ensures r.runningTimers == b.runningTimers && r.next == b.next
  {
    if h.Some? then RevokeObjectUrl(b, h.value) else b
  }
}

=== FILE: recording.dfy ===
/**
  The voice-note recording session both composers share: `startRecording` with its
  `ondataavailable`/`onstop` handlers and its one-second interval, and `stopRecording`.
  The composers differ only in what their `onstop` handler does with the finished blob,
  so `Finish` returns the blob and leaves that to them.
 */
module Recording {
  import opened Common
  import opened Media

  /**
    The component's recording state: the `isRecording` and `recordingTime` state
    variables and the two refs holding the current recorder and interval. A ref is
    never cleared once set.
   */
  datatype Session = Session(
    isRecording: bool,
    recordingTime: nat,
    recorderRef: Option<StreamId>,
    timerRef: Option<TimerId>)

  const Idle: Session := Session(false, 0, None, None)

  /** What `getUserMedia({ audio: true })` resolves to. */
  datatype MicOutcome = Granted | Denied

  datatype Capture = Capture(session: Session, browser: Browser)

  /** The refs point at resources that exist, and while recording, the recorder and its interval run. */
  ghost predicate Wf(s: Session, b: Browser) {
    && Media.Wf(b)
    && (s.recorderRef.Some? ==> s.recorderRef.value in b.recorders)
    && (s.timerRef.Some? ==> s.timerRef.value < b.next)
    && (s.isRecording ==>
          && s.recorderRef.Some? && b.recorders[s.recorderRef.value].phase == Active
          && s.timerRef.Some? && s.timerRef.value in b.runningTimers)
  }

  lemma IdleWf()
    ensures Wf(Idle, Fresh)
  {
    FreshWf();
  }

  /** Creating or revoking object URLs does not disturb the session. */
  lemma UrlsFrame(s: Session, b: Browser, b': Browser)
    requires Wf(s, b) && Media.Wf(b')
    requires b'.recorders == b.recorders && b'.runningTimers == b.runningTimers && b'.next >= b.next
    ensures Wf(s, b')
  {
  }

  /**
    `startRecording`. When the microphone is refused nothing changes (the catch branch only
    shows a notice). When it is granted, a new stream is opened, a new recorder on it starts,
    a new interval starts, and the session is recording from zero. The function itself has
    no guard: called while already recording, it orphans the previous recorder and interval.
   */
  function Start(s: Session, b: Browser, o: MicOutcome): (r: Capture)
    requires Wf(s, b)
    ensures Wf(r.session, r.browser)
    ensures o == Denied ==> r == Capture(s, b)
    ensures o == Granted ==>
      && r.session.isRecording && r.session.recordingTime == 0
      && r.session.recorderRef.Some? && r.session.timerRef.Some?
      && var sid := r.session.recorderRef.value;
         && sid !in b.openStreams && sid !in b.recorders
         && r.browser.openStreams == b.openStreams + {sid}
         && r.browser.recorders == b.recorders[sid := Recorder([], Active)]
         && r.session.timerRef.value !in b.runningTimers
         && r.browser.runningTimers == b.runningTimers + {r.session.timerRef.value}
    ensures r.browser.liveUrls == b.liveUrls && r.browser.next >= b.next
  {
    match o
    case Denied => Capture(s, b)
    case Granted =>
      var sid := b.next;
      var tid := b.next + 1;
      var b' := b.(openStreams := b.openStreams + {sid},
                   recorders := b.recorders[sid := Recorder([], Active)],
                   runningTimers := b.runningTimers + {tid},
                   next := b.next + 2);
      Capture(Session(true, 0, Some(sid), Some(tid)), b')
  }

  /** One firing of the interval: `setRecordingTime(prev => prev + 1)`. */
  function Tick(s: Session): (r: Session)
    ensures r.recordingTime == s.recordingTime + 1
    ensures r.isRecording == s.isRecording && r.recorderRef == s.recorderRef && r.timerRef == s.timerRef
  {
    s.(recordingTime := s.recordingTime + 1)
  }

  /** `n` firings of the interval in a row. */
  function Ticks(s: Session, n: nat): Session
  {
    if n == 0 then s else Tick(Ticks(s, n - 1))
  }

  /** Each firing adds exactly one second, so `n` firings add `n`. */
  lemma {:induction false} TicksAdd(s: Session, n: nat)
    ensures Ticks(s, n).recordingTime == s.recordingTime + n
    ensures Ticks(s, n).isRecording == s.isRecording && Ticks(s, n).recorderRef == s.recorderRef
    ensures Ticks(s, n).timerRef == s.timerRef
  {
    if n > 0 {
      TicksAdd(s, n - 1);
    }
  }

  /** `MediaRecorder.stop()`: an active recorder moves to `Stopping`; otherwise nothing happens. */
  function StopRecorder(b: Browser, sid: StreamId): (r: Browser)
  {
    if sid in b.recorders && b.recorders[sid].phase == Active
    then b.(recorders := b.recorders[sid := b.recorders[sid].(phase := Stopping)])
    else b
  }

  /**
    `stopRecording`: only when a recorder exists and `isRecording` holds, stops that recorder,
    clears the recording flag and clears the interval. The stream stays open until the
    recorder's `onstop` handler runs (`Finish`).
   */
  function Stop(s: Session, b: Browser): (r: Capture)
    requires Wf(s, b)
    ensures Wf(r.session, r.browser)
    ensures !(s.recorderRef.Some? && s.isRecording) ==> r == Capture(s, b)
    ensures s.recorderRef.Some? && s.isRecording ==>
      && !r.session.isRecording
      && r.session.recordingTime == s.recordingTime
      && r.session.recorderRef == s.recorderRef && r.session.timerRef == s.timerRef
      && r.browser.recorders == b.recorders[s.recorderRef.value := b.recorders[s.recorderRef.value].(phase := Stopping)]
      && r.browser.runningTimers == b.runningTimers - {s.timerRef.value}
      && r.browser.openStreams == b.openStreams
    ensures r.browser.liveUrls == b.liveUrls && r.browser.next == b.next
  {
    if s.recorderRef.Some? && s.isRecording then
      var b1 := StopRecorder(b, s.recorderRef.value);
      var b2 := if s.timerRef.Some? then b1.(runningTimers := b1.runningTimers - {s.timerRef.value}) else b1;
      Capture(s.(isRecording := false), b2)
    else
      Capture(s, b)
  }

  /** A recorder that has not finished may deliver a chunk. */
  predicate CanDeliver(b: Browser, sid: StreamId) {
    sid in b.recorders && b.recorders[sid].phase != Inactive
  }

  /** `ondataavailable`: the chunk is appended to that recorder's `audioChunks`. */
  function DataAvailable(b: Browser, sid: StreamId, c: Chunk): (r: Browser)
    requires CanDeliver(b, sid)
    ensures sid in r.recorders && r.recorders[sid].chunks == b.recorders[sid].chunks + [c]
    ensures r.recorders[sid].phase == b.recorders[sid].phase
    ensures r.recorders.Keys == b.recorders.Keys
    ensures forall o :: o in b.recorders && o != sid ==> r.recorders[o] == b.recorders[o]
    ensures r.liveUrls == b.liveUrls && r.openStreams == b.openStreams
    ensures r.runningTimers == b.runningTimers && r.next == b.next
  {
    var rec := b.recorders[sid];
    b.(recorders := b.recorders[sid := rec.(chunks := rec.chunks + [c])])
  }

  lemma DataAvailableKeepsWf(s: Session, b: Browser, sid: StreamId, c: Chunk)
    requires Wf(s, b) && CanDeliver(b, sid)
    ensures Wf(s, DataAvailable(b, sid, c))
  {
  }

  /** A recorder whose `onstop` handler is pending. */
  predicate CanFinish(b: Browser, sid: StreamId) {
    sid in b.recorders && b.recorders[sid].phase == Stopping
  }

  datatype Finished = Finished(browser: Browser, blob: Blob)

  /**
    The common part of `onstop`: all recorded chunks become one `audio/wav` blob, every track
    of the recorder's stream is stopped, and the recorder is done.
   */
  function Finish(b: Browser, sid: StreamId): (r: Finished)
    requires CanFinish(b, sid)
    ensures r.blob == Blob(b.recorders[sid].chunks, AudioMime)
    ensures sid !in r.browser.openStreams
    ensures r.browser.openStreams == b.openStreams - {sid}
    ensures r.browser.recorders == b.recorders[sid := b.recorders[sid].(phase := Inactive)]
    ensures r.browser.liveUrls == b.liveUrls && r.browser.runningTimers == b.runningTimers
    ensures r.browser.next == b.next
  {
    var rec := b.recorders[sid];
    Finished(b.(openStreams := b.openStreams - {sid},
                recorders := b.recorders[sid := rec.(phase := Inactive)]),
             Blob(rec.chunks, AudioMime))
  }

  lemma FinishKeepsWf(s: Session, b: Browser, sid: StreamId)
    requires Wf(s, b) && CanFinish(b, sid)
    ensures Wf(s, Finish(b, sid).browser)
  {
  }

  /**
    Stopping a recording always releases the device: after `stopRecording` and the `onstop`
    it triggers, the recorder's stream has no running track and its interval no longer fires,
    and the blob holds every chunk the recorder delivered.
   */
  lemma StopThenFinishReleasesStream(s: Session, b: Browser)
    requires Wf(s, b) && s.isRecording
    ensures var c := Stop(s, b);
            var sid := s.recorderRef.value;
            && CanFinish(c.browser, sid)
            && var f := Finish(c.browser, sid);
               && sid !in f.browser.openStreams
               && s.timerRef.value !in f.browser.runningTimers
               && f.blob.chunks == b.recorders[sid].chunks
               && !c.session.isRecording
  {
  }
}

=== FILE: text.dfy ===
/**
  The string operations the components rely on: JavaScript's `String.prototype.trim`
  (used by every blank-input guard), the decimal rendering of a non-negative integer,
  and the `m:ss` timer label both composers draw with `formatTime`.
 */
module Text {
  import opened Common

  /** The ECMAScript WhiteSpace and LineTerminator code points, which `trim` strips. */
  predicate IsWhitespace(c: char) {
    || c == '\t' || c == '\n' || c == '\U{B}' || c == '\U{C}' || c == '\r' || c == ' '
    || c == '\U{A0}' || c == '\U{1680}' || ('\U{2000}' <= c <= '\U{200A}')
    || c == '\U{2028}' || c == '\U{2029}' || c == '\U{202F}' || c == '\U{205F}'
    || c == '\U{3000}' || c == '\U{FEFF}'
  }

  predicate AllWhitespace(s: string) {
    forall i :: 0 <= i < |s| ==> IsWhitespace(s[i])
  }

  /** Two all-whitespace strings concatenate to an all-whitespace string. */
  lemma AllWhitespaceConcat(a: string, b: string)
    requires AllWhitespace(a) && AllWhitespace(b)
    ensures AllWhitespace(a + b)
  {
    forall k | 0 <= k < |a + b| ensures IsWhitespace((a + b)[k]) {
      if k < |a| { assert (a + b)[k] == a[k]; } else { assert (a + b)[k] == b[k - |a|]; }
    }
  }

  /** `s` with its leading whitespace removed. */
  function TrimStart(s: string): (r: string)
    ensures |r| <= |s| && r == s[|s| - |r|..]
    ensures AllWhitespace(s[..|s| - |r|])
    ensures r == [] || !IsWhitespace(r[0])
    decreases |s|
  {
    if |s| > 0 && IsWhitespace(s[0]) then
      var t := TrimStart(s[1..]);
      TrimStartStep(s, t);
      t
    else
      s
  }

  /** Stripping a leading whitespace character, then the rest, strips it all. */
  lemma TrimStartStep(s: string, t: string)
    requires |s| > 0 && IsWhitespace(s[0])
    requires |t| <= |s| - 1 && t == s[1..][|s| - 1 - |t|..] && AllWhitespace(s[1..][..|s| - 1 - |t|])
    ensures t == s[|s| - |t|..] && AllWhitespace(s[..|s| - |t|])
  {
    var w := s[1..][..|s| - 1 - |t|];
    assert s[..|s| - |t|] == [s[0]] + w;
    AllWhitespaceConcat([s[0]], w);
  }

  /** `s` with its trailing whitespace removed. */
  function TrimEnd(s: string): (r: string)
    ensures |r| <= |s| && r == s[..|r|]
    ensures AllWhitespace(s[|r|..])
    ensures r == [] || !IsWhitespace(r[|r| - 1])
    decreases |s|
  {
    if |s| > 0 && IsWhitespace(s[|s| - 1]) then
      var t := TrimEnd(s[..|s| - 1]);
      TrimEndStep(s, t);
      t
    else
      s
  }

  /** Stripping a trailing whitespace character, then the rest, strips it all. */
  lemma TrimEndStep(s: string, t: string)
    requires |s| > 0 && IsWhitespace(s[|s| - 1])
    requires |t| <= |s| - 1 && t == s[..|s| - 1][..|t|] && AllWhitespace(s[..|s| - 1][|t|..])
    ensures t == s[..|t|] && AllWhitespace(s[|t|..])
  {
    var w := s[..|s| - 1][|t|..];
    assert s[|t|..] == w + [s[|s| - 1]];
    AllWhitespaceConcat(w, [s[|s| - 1]]);
  }

  /** `s` is `r` surrounded by whitespace on both sides. */
  ghost predicate PaddedInfix(s: string, r: string) {
    exists i :: 0 <= i <= |s| - |r| && s[i..i + |r|] == r
                && AllWhitespace(s[..i]) && AllWhitespace(s[i + |r|..])
  }

  /** Whitespace at `s[..i]`, then `r`, then whitespace to the end, makes `s` a padded `r`. */
  lemma PaddedInfixAt(s: string, i: nat, r: string)
    requires i + |r| <= |s| && s[i..i + |r|] == r
    requires AllWhitespace(s[..i]) && AllWhitespace(s[i + |r|..])
    ensures PaddedInfix(s, r)
  {
  }

  /** JavaScript's `s.trim()`: the longest infix of `s` that neither starts nor ends with whitespace. */
  function Trim(s: string): (r: string)
    ensures PaddedInfix(s, r)
    ensures r == [] || (!IsWhitespace(r[0]) && !IsWhitespace(r[|r| - 1]))
  {
    var u := TrimStart(s);
    var r := TrimEnd(u);
    TrimPieces(s, u, r);
    r
  }

  lemma TrimPieces(s: string, u: string, r: string)
    requires u == TrimStart(s) && r == TrimEnd(u)
    ensures PaddedInfix(s, r)
    ensures r != [] ==> r[0] == u[0]
  {
    var i := |s| - |u|;
    SuffixPrefixSlices(s, i, u, r);
    PaddedInfixAt(s, i, r);
  }

  /** A prefix `r` of the suffix `u` of `s` from `i` sits at `i` in `s`, followed by the rest of `u`. */
  lemma SuffixPrefixSlices(s: string, i: nat, u: string, r: string)
    requires i <= |s| && u == s[i..] && |r| <= |u| && r == u[..|r|]
    ensures s[i..i + |r|] == r && s[i + |r|..] == u[|r|..]
  {
  }

  /** The guard `!x.trim()`: the text is empty once trimmed. */
  predicate IsBlank(s: string) {
    Trim(s) == []
  }

  /** A string is blank exactly when every character of it is whitespace. */
  lemma BlankIffAllWhitespace(s: string)
    ensures IsBlank(s) <==> AllWhitespace(s)
  {
    var u := TrimStart(s);
    var r := TrimEnd(u);
    assert Trim(s) == r;
    var i := |s| - |u|;
    if r == [] {
      assert u[|r|..] == u;
      assert s == s[..i] + u;
      AllWhitespaceConcat(s[..i], u);
    } else {
      assert u[0] == r[0];
      assert s[i] == u[0];
    }
  }

  /** The empty text trims to itself, so it is blank. */
  lemma TrimEmpty()
    ensures Trim("") == "" && IsBlank("")
  {
    assert TrimStart("") == "";
    assert TrimEnd("") == "";
  }

  /** Trimming a trimmed string changes nothing. */
  lemma TrimIdempotent(s: string)
    ensures Trim(Trim(s)) == Trim(s)
  {
    var r := Trim(s);
    if r != [] {
      assert TrimStart(r) == r;
      assert TrimEnd(r) == r;
    }
  }

  // ---------------------------------------------------------------------------
  // Decimal numerals

  predicate IsDigit(c: char) {
    '0' <= c <= '9'
  }

  predicate AllDigits(s: string) {
    forall i :: 0 <= i < |s| ==> IsDigit(s[i])
  }

  function DigitChar(d: nat): (c: char)
    requires d < 10
    ensures IsDigit(c)
  {
    (d + '0' as int) as char
  }

  function DigitValue(c: char): (d: nat)
    requires IsDigit(c)
    ensures d < 10
  {
    c as int - '0' as int
  }

  /** A numeral as `toString` writes one: at least one digit, and no leading zero unless it is "0". */
  predicate Canonical(s: string) {
    |s| >= 1 && AllDigits(s) && (|s| == 1 || s[0] != '0')
  }

  /** `Number.prototype.toString()` on a non-negative integer: its decimal digits, no leading zero. */
  function Decimal(n: nat): (r: string)
    ensures |r| >= 1 && AllDigits(r)
    ensures r[0] == '0' ==> n == 0
    ensures |r| == 1 <==> n < 10
    ensures Canonical(r)
  {
    if n < 10 then [DigitChar(n)] else Decimal(n / 10) + [DigitChar(n % 10)]
  }

  /** The value of a string of decimal digits (the empty string reads as 0). */
  function ParseDecimal(s: string): nat
    requires AllDigits(s)
  {
    if s == [] then 0 else ParseDecimal(s[..|s| - 1]) * 10 + DigitValue(s[|s| - 1])
  }

  /** Reading back the decimal rendering of `n` gives `n`. */
  lemma {:induction false} ParseDecimalOfDecimal(n: nat)
    ensures ParseDecimal(Decimal(n)) == n
  {
    var r := Decimal(n);
    if n >= 10 {
      assert r[..|r| - 1] == Decimal(n / 10);
      ParseDecimalOfDecimal(n / 10);
    }
  }

  /** A numeral with a non-zero leading digit is worth at least 1, and at least 10 with two digits or more. */
  lemma {:induction false} ParseDecimalLeading(s: string)
    requires AllDigits(s) && |s| >= 1 && s[0] != '0'
    ensures ParseDecimal(s) >= 1
    ensures |s| >= 2 ==> ParseDecimal(s) >= 10
    decreases |s|
  {
    if |s| >= 2 {
      var p := s[..|s| - 1];
      assert p[0] == s[0];
      ParseDecimalLeading(p);
    }
  }

  /** Rendering the value of a canonical numeral gives the numeral back. */
  lemma {:induction false} DecimalOfParseDecimal(s: string)
    requires Canonical(s)
    ensures Decimal(ParseDecimal(s)) == s
    decreases |s|
  {
    var n := ParseDecimal(s);
    if |s| == 1 {
      assert s[..|s| - 1] == [];
      assert ParseDecimal(s[..|s| - 1]) == 0;
      assert n == DigitValue(s[0]);
      assert DigitChar(n) == s[0];
    } else {
      var p := s[..|s| - 1];
      var d := DigitValue(s[|s| - 1]);
      ParseDecimalLeading(s);
      assert p[0] == s[0];
      assert n == ParseDecimal(p) * 10 + d;
      assert n / 10 == ParseDecimal(p) && n % 10 == d;
      DecimalOfParseDecimal(p);
      assert DigitChar(d) == s[|s| - 1];
      assert s == p + [s[|s| - 1]];
    }
  }

  // ---------------------------------------------------------------------------
  // The m:ss timer label

  /** `padStart(2, '0')`: left-pads to two characters with '0'. */
  function PadTwo(s: string): (r: string)
    ensures |s| >= 2 ==> r == s
    ensures |s| < 2 ==> |r| == 2 && r[2 - |s|..] == s && r[..2 - |s|] == "00"[..2 - |s|]
  {
    if |s| == 0 then "00" else if |s| == 1 then "0" + s else s
  }

  /** `formatTime(seconds)`: the whole minutes, a colon, then the remaining seconds on two digits. */
  function FormatTime(seconds: nat): (r: string)
    ensures |r| >= 4 && r[|r| - 3] == ':'
    ensures AllDigits(r[..|r| - 3]) && AllDigits(r[|r| - 2..])
    ensures ParseDecimal(r[..|r| - 3]) * 60 + ParseDecimal(r[|r| - 2..]) == seconds
    ensures ParseDecimal(r[|r| - 2..]) < 60
    ensures |r| > 4 ==> r[0] != '0'
  {
    var mins := Decimal(seconds / 60);
    var secs := PadTwo(Decimal(seconds % 60));
    ParseDecimalOfDecimal(seconds / 60);
    ParseDecimalOfDecimal(seconds % 60);
    assert ParseDecimal(secs) == seconds % 60 by {
      if seconds % 60 < 10 {
        assert secs == ['0', DigitChar(seconds % 60)];
        assert secs[..1] == "0";
      }
    }
    var r := mins + ":" + secs;
    assert r[0] == mins[0];
    assert r[..|r| - 3] == mins;
    assert r[|r| - 2..] == secs;
    r
  }

  /**
    The inverse of `FormatTime`: splits a label at its third-to-last character and accepts
    only canonical minutes followed by two digits of seconds below 60.
   */
  function ParseTime(t: string): (r: Option<nat>)
  {
    if |t| >= 4 && t[|t| - 3] == ':' && Canonical(t[..|t| - 3]) && AllDigits(t[|t| - 2..])
       && ParseDecimal(t[|t| - 2..]) < 60
    then Some(ParseDecimal(t[..|t| - 3]) * 60 + ParseDecimal(t[|t| - 2..]))
    else None
  }

  /** Every label `formatTime` draws reads back as the number of seconds it was drawn from. */
  lemma FormatTimeRoundTrip(seconds: nat)
    ensures ParseTime(FormatTime(seconds)) == Some(seconds)
  {
    var r := FormatTime(seconds);
    assert r[..|r| - 3][0] == r[0];
  }

  lemma DivModSixty(m: nat, s: nat)
    requires s < 60
    ensures (m * 60 + s) / 60 == m && (m * 60 + s) % 60 == s
  {
  }

  /** Two digits below 60, left-padded as `formatTime` pads them, are the seconds' rendering. */
  lemma PaddedSeconds(u: string)
    requires |u| == 2 && AllDigits(u) && ParseDecimal(u) < 60
    ensures PadTwo(Decimal(ParseDecimal(u))) == u
  {
    var v := ParseDecimal(u);
    assert u[..1][..0] == [];
    assert ParseDecimal(u[..1]) == DigitValue(u[0]);
    if u[0] == '0' {
      assert v == DigitValue(u[1]);
      assert Decimal(v) == [DigitChar(v)] == [u[1]];
      assert u == "0" + [u[1]];
    } else {
      DecimalOfParseDecimal(u);
    }
  }

  /** Every label `ParseTime` accepts is exactly the label `formatTime` draws for its value. */
  lemma ParseTimeRoundTrip(t: string)
    ensures ParseTime(t).Some? ==> FormatTime(ParseTime(t).value) == t
  {
    if ParseTime(t).Some? {
      var m, u := t[..|t| - 3], t[|t| - 2..];
      var mv, uv := ParseDecimal(m), ParseDecimal(u);
      DivModSixty(mv, uv);
      DecimalOfParseDecimal(m);
      PaddedSeconds(u);
      assert t == m + ":" + u;
    }
  }

  /** Distinct second counts are drawn as distinct labels. */
  lemma FormatTimeInjective(a: nat, b: nat)
    ensures FormatTime(a) == FormatTime(b) ==> a == b
  {
    FormatTimeRoundTrip(a);
    FormatTimeRoundTrip(b);
  }

  /** Three seconds are drawn as "0:03"; seventy-five as "1:15". */
  lemma FormatTimeExamples()
    ensures FormatTime(3) == "0:03"
    ensures FormatTime(75) == "1:15"
  {
    FormatThreeSeconds();
    FormatSeventyFiveSeconds();
  }

  lemma FormatThreeSeconds()
    ensures FormatTime(3) == "0:03"
  {
    assert DigitChar(0) == '0' && DigitChar(3) == '3';
    assert Decimal(0) == ['0'] && Decimal(3) == ['3'];
    assert PadTwo(['3']) == ['0', '3'];
    assert FormatTime(3) == ['0'] + ":" + ['0', '3'];
  }

  lemma FormatSeventyFiveSeconds()
    ensures FormatTime(75) == "1:15"
  {
    assert 75 / 60 == 1 && 75 % 60 == 15 && 15 / 10 == 1 && 15 % 10 == 5;
    assert DigitChar(1) == '1' && DigitChar(5) == '5';
    assert Decimal(1) == ['1'];
    assert Decimal(15) == Decimal(1) + ['5'] == ['1', '5'];
    assert PadTwo(['1', '5']) == ['1', '5'];
    assert FormatTime(75) == ['1'] + ":" + ['1', '5'];
  }
}
